=== FILE: README.md ===
# Registration and login backend, modelled in Dafny

This project models the credential pipeline of the NestJS backend of
Registration-Login-Feature, and proves properties of that model. A request to
`POST /user/register` or `POST /user/login` runs through four stages:

1. The route's own `RateLimitGuard`. Register allows 5 requests and login 10
   requests per 60000 ms, per client address.
2. The global `ValidationPipe`. It builds a `RegisterUserDto` or
   `LoginUserDto` instance with class-transformer (implicit conversion, then
   the email `@Transform`). It checks the instance with class-validator
   (whitelist errors first, then each property's decorators bottom-up).
   It throws through the `exceptionFactory` when anything fails.
3. `UserService.register` or `UserService.login`. The users collection is a
   map from email to `{passwordHash, createdAt}`.
4. `AllExceptionsFilter`, which turns every exception into a status and a
   `{message: string}` body.

The model also covers:

- the CORS origin list that `main.ts` derives from `FRONTEND_URL`;
- the custom `IsNormalizedEmail` and `IsStrongPassword` predicates;
- `TrimPipe`, which is defined but installed on no route.

Everything is a pure function over immutable datatypes:

- the guard's map becomes a `RateLimit.State` passed in and out;
- the collection becomes `UserService.Store`;
- JSON bodies become `Json.Value`.

What happens outside the process is supplied as inputs:

- the guard's `Date.now()` and the service's `new Date()` for `createdAt` are
  two separate request fields (`now` and `savedAt`), because they are read at
  different moments;
- the outcome of `findOne` and `bcrypt.hash` is a `RegisterEnv`;
- the outcome of `bcrypt.compare` is a `LoginEnv`;
- a concurrent insert between the pre-check and `save` is a `RegisterEnv` field;
- validator.js's `isEmail` is a predicate parameter.

Files, one module each: `basics.dfy`, `text.dfy` (JavaScript `\s`, `trim`,
`toLowerCase`, `split`, `join`), `json.dfy`, `exceptions.dfy` (the exceptions and
the filter), `rate_limit.dfy`, `validators.dfy`, `dtos.dfy`, `bootstrap.dfy`
(`main.ts`), `user_service.dfy`, `user_controller.dfy`, `trim_pipe.dfy`.

Where the code behaves differently from a plain reading of its decorators,
the model follows the code:

- The pipe enables implicit conversion, and class-transformer converts a
  value to the declared `string` type before it applies `@Transform`. So a
  numeric or boolean email, or an object email, reaches the email checks as
  its string form (`"5"`, `"true"`, `"[object Object]"`) after lower-casing and
  trimming. It is not passed through untransformed. Only `null` and arrays
  stay non-strings.
- class-validator reports a property's failed constraints in the order its
  decorators are applied, which is bottom-up in the source. For example,
  "Password cannot contain whitespace" comes first.
- `MinLength` and `MaxLength` use validator.js's `isLength`. It counts a
  surrogate pair once and does not count U+FE0E and U+FE0F, so its length is
  the number of code points less those two (`Dtos.Length`).

## Model

| member | source | states |
|---|---|---|
| RateLimit.Recent | backend/src/common/guards/rate-limit.guard.ts:66-74 | every instant keeps its multiplicity when `now - t < windowMs` and is dropped otherwise; the result is never longer |
| RateLimit.RecentMembership | backend/src/common/guards/rate-limit.guard.ts:70-72 | a stored instant survives pruning exactly when it lies less than `windowMs` before `now` |
| RateLimit.RecentTwice | backend/src/common/guards/rate-limit.guard.ts:66-74 | pruning at an earlier instant and then at a later one equals pruning at the later one |
| RateLimit.CleanOldEntries | backend/src/common/guards/rate-limit.guard.ts:66-74 | an absent key is not created, the requesting key's instants become the pruned ones, and every other key is unchanged |
| RateLimit.Admit | backend/src/common/guards/rate-limit.guard.ts:26-55 | admitted iff the pruned count is below `maxRequests`; if admitted, `now` is appended; if refused, only pruning happens; no other key is touched |
| RateLimit.RejectionNeverGrows | backend/src/common/guards/rate-limit.guard.ts:40-47 | a refused request leaves its client's sequence no longer than before |
| RateLimit.AdmitPreservesBound | backend/src/common/guards/rate-limit.guard.ts:40-52 | if every client holds at most `maxRequests` instants, that stays true after any request |
| RateLimit.ClientKey | backend/src/common/guards/rate-limit.guard.ts:57-64 | the key is the first truthy of `ip`, `connection.remoteAddress`, `socket.remoteAddress`, else "unknown" |
| RateLimit.CanActivate | backend/src/common/guards/rate-limit.guard.ts:26-55 | the guard throws exactly when `Admit` refuses, and then throws the 429 `HttpException` with "Too many requests. Please try again later." |
| RateLimit.AdmitTracks | backend/src/common/guards/rate-limit.guard.ts:26-55 | one request keeps the pruned map agreeing with the full unpruned history on every later window, and decides as that history does |
| RateLimit.RunFollowsPolicy | backend/src/common/guards/rate-limit.guard.ts:26-55 | for time-ordered requests, the pruned map decides every request as the sliding-window policy over the unpruned history |
| RateLimit.FreshRunFollowsPolicy | backend/src/common/guards/rate-limit.guard.ts:26-55 | from an empty map, time-ordered requests are decided by the sliding-window policy |
| RateLimit.BurstPolicy | backend/src/common/guards/rate-limit.guard.ts:40 | under the policy with limit n, n requests inside one window pass, the next is refused, and one after the first has aged out passes |
| RateLimit.BurstThenRecovery | backend/src/common/guards/rate-limit.guard.ts:26-74 | a fresh guard with limit n admits n requests of a burst, refuses the next, and admits again once the first has expired |
| RateLimit.DefaultScenario | backend/src/common/guards/rate-limit.guard.ts:20-24 | with the defaults 5/60000, requests at 0,1,2,3,4 pass, one at 5 is refused, and one at 60000 passes |
| Validators.NormalizeEmail | backend/src/user/dto/register-user.dto.ts:15 | the lower-cased, trimmed email is never longer and is canonical: no upper-case letter and no whitespace at either end |
| Validators.CanonicalIsFixpoint | backend/src/user/dto/register-user.dto.ts:15 | normalisation leaves a string unchanged iff it is canonical |
| Validators.NormalizeIdempotent | backend/src/user/dto/register-user.dto.ts:15 | normalising twice is normalising once |
| Validators.NormalizeIgnoresCaseAndPadding | backend/src/common/validators/email-normalize.validator.ts:25 | surrounding whitespace and ASCII letter case do not reach the normalised email |
| Validators.EmailPatternIsShape | backend/src/common/validators/email-normalize.validator.ts:26 | `^[^\s@]+@[^\s@]+\.[^\s@]+$` matches iff there is no whitespace, exactly one '@' with something before it, and a '.' in the domain that is neither its first nor its last character |
| Validators.ValidateNormalizedEmail | backend/src/common/validators/email-normalize.validator.ts:19-28 | true iff the value is a string whose lower-cased, trimmed form matches the email pattern; any non-string is false |
| Validators.NormalizedEmailIgnoresCaseAndPadding | backend/src/common/validators/email-normalize.validator.ts:25-27 | two spellings that differ only in letter case and surrounding whitespace get the same verdict |
| Validators.NormalizedEmailExample | backend/src/common/validators/email-normalize.validator.ts:25-27 | " A@B.CO " and "a@b.co" get the same verdict, and "a@b.co" passes |
| Validators.ValidateStrongPassword | backend/src/common/validators/password.validator.ts:15-22 | true iff the value is a string matching `^(?=.*[A-Za-z])(?=.*\d).{6,}$` read as a regular expression; any non-string is false |
| Validators.StrongPasswordMeaning | backend/src/common/validators/password.validator.ts:20 | the lookahead reading of the pattern holds iff the value has at least 6 characters, an ASCII letter, an ASCII digit and no line terminator |
| Validators.StrongPasswordExtends | backend/src/common/validators/password.validator.ts:20 | there is no upper bound: appending characters other than line terminators keeps an accepted password accepted |
| Validators.StrongPasswordRejectsLineTerminator | backend/src/common/validators/password.validator.ts:20 | a `\n`, `\r`, U+2028 or U+2029 anywhere makes the password fail |
| Dtos.Passes | backend/src/user/dto/register-user.dto.ts:12-35 | every decorator except `IsNotEmpty` needs a string; `IsNotEmpty` rejects exactly undefined, null and ""; the two `Matches` and `IsStrongPassword` checks are their patterns (the whitespace one also rejects ""); `MinLength` and `MaxLength` bound `Length` |
| Dtos.FailedMessages | backend/src/user/dto/register-user.dto.ts:12-35 | no message iff every decorator passes; the message of every failed decorator is reported, and each reported message belongs to a failed decorator |
| Dtos.FailedMessagesStep | backend/src/user/dto/register-user.dto.ts:27-34 | the bottom decorator is reported first: adding a decorator below puts its message, if it fails, in front of the others |
| Dtos.FailedMessagesTopLast | backend/src/user/dto/register-user.dto.ts:27-34 | the top decorator is reported last: adding a decorator above puts its message, if it fails, after the others |
| Dtos.ImplicitString | backend/src/main.ts:31-33 | conversion to `string` keeps strings, keeps null and arrays in their kind, and turns every other value into a string |
| Dtos.GetInstantiate | backend/src/user/dto/register-user.dto.ts:15 | reading a property of the instance gives the transformed property of the body, and an absent one stays absent |
| Dtos.WhitelistErrors | backend/src/main.ts:28-29 | no whitelist error iff every field is declared; every undeclared field has its "property … should not exist" entry, and every entry names an undeclared field of the body |
| Dtos.Instantiate | backend/src/main.ts:30-33 | the instance has the body's fields in body order under the same keys; each declared value is converted to a string and transformed, and each undeclared value is copied |
| Dtos.Validate | backend/src/main.ts:27-29 | no error iff every field is declared and every declared property passes all its decorators; every reported error carries at least one message |
| Dtos.ValidateReportsEveryFailure | backend/src/main.ts:27-29 | every undeclared field has its whitelist entry and every failing property its entry of failed messages |
| Dtos.ValidateReportsOnlyFailures | backend/src/main.ts:27-29 | each entry is the whitelist entry of an undeclared field or the entry of a declared property |
| Dtos.ValidateWhitelistFirst | backend/src/main.ts:28-29 | the entries for undeclared fields come before every entry of a declared property |
| Dtos.ValidateInOrder | backend/src/main.ts:27-29 | in the full error list, undeclared fields are reported in body order and failing declared properties in declaration order |
| Dtos.PropertyErrors | backend/src/user/dto/register-user.dto.ts:12-35 | no property error iff each declared property passes all its decorators; each entry is some property's name with its failed messages, every failing property has its entry, and no entry is empty |
| Dtos.PropertyErrorsInOrder | backend/src/user/dto/register-user.dto.ts:12-35 | of two failing properties, the one declared first is reported first |
| Dtos.WhitelistErrorsInOrder | backend/src/main.ts:28-29 | of two undeclared fields, the one that comes first in the body is reported first |
| Dtos.RegisterEmailAccepts | backend/src/user/dto/register-user.dto.ts:12-18 | the registration email passes iff it is a string that matches the pattern, is at most 255 long and satisfies `isEmail` |
| Dtos.RegisterPasswordAccepts | backend/src/user/dto/register-user.dto.ts:27-34 | the registration password passes iff it is a string of length 6 to 128 that is strong and has no whitespace |
| Dtos.LoginEmailAccepts | backend/src/user/dto/login-user.dto.ts:10-16 | the login email passes iff it is a string that matches the pattern and satisfies `isEmail`, with no length cap |
| Dtos.LoginPasswordAccepts | backend/src/user/dto/login-user.dto.ts:22-26 | the login password passes iff it is a string of length 1 to 128 |
| Dtos.RegisterStricterThanLogin | backend/src/user/dto/login-user.dto.ts:10-26 | every email and password that registration accepts, login accepts |
| Dtos.MissingPasswordMessages | backend/src/user/dto/register-user.dto.ts:27-34 | a missing password fails all six decorators, reported bottom-up |
| Dtos.MissingEmailMessages | backend/src/user/dto/register-user.dto.ts:12-18 | a missing email fails all four decorators, reported bottom-up |
| Dtos.ShortPasswordOnlyAtLogin | backend/src/user/dto/login-user.dto.ts:22-26 | "abc" passes at login but fails the strength and minimum-length rules at registration |
| Dtos.InstanceValues | backend/src/user/dto/register-user.dto.ts:15-35 | the instance email is the converted body email, normalised when it is a string; the password is only converted, never trimmed or lower-cased |
| Dtos.BodyAccepted | backend/src/main.ts:28-29 | a body passes iff it has no field but email and password and each passes its own decorators |
| Dtos.InstanceEmail | backend/src/user/dto/login-user.dto.ts:12 | a string email reaches the instance lower-cased and trimmed |
| Dtos.SameInstanceValues | backend/src/user/dto/login-user.dto.ts:12 | both DTOs build the same email and the same password from any body |
| Dtos.LoginAcceptsRegisteredInstance | backend/src/user/dto/login-user.dto.ts:10-26 | a body the registration DTO accepts, the login DTO accepts |
| Bootstrap.FrontendUrl | backend/src/main.ts:10 | an unset or empty `FRONTEND_URL` falls back to "http://localhost:5173"; any other value is used as it is |
| Bootstrap.AllowedOrigins | backend/src/main.ts:11-13 | with a comma, the trimmed comma-separated pieces (at least two); without, the URL followed by both local front ends |
| Bootstrap.OriginListRoundTrip | backend/src/main.ts:11-12 | comma-free origins written with commas come back as exactly those origins, trimmed, in order |
| Bootstrap.ConfiguredOriginAllowed | backend/src/main.ts:13 | without a comma, the configured URL and the default front end are both allowed |
| Bootstrap.DefaultOriginsRepeat | backend/src/main.ts:10-13 | with no configured URL, the default front end appears twice |
| Bootstrap.Cors | backend/src/main.ts:15-20 | the `origin` option is the derived origin list and credentials are allowed |
| Bootstrap.ErrorMessages | backend/src/main.ts:35-37 | one text per error, in order, each the error's constraint messages joined by ", " |
| Bootstrap.ExceptionFactory | backend/src/main.ts:34-39 | a 400 whose body message is the per-property texts, which the filter answers as their ", " join, or "Validation failed" when that is empty |
| Bootstrap.JoinOfJoins | backend/src/main.ts:36 | joining the per-property texts again with ", " equals joining all constraint messages at once |
| Bootstrap.ReportedDecoratorMessages | backend/src/main.ts:34-37 | for any DTO, the message of every failed decorator of a declared property is among the reported constraint messages |
| Bootstrap.ReportedWhitelistMessages | backend/src/main.ts:34-37 | for any DTO, the whitelist message of every undeclared field is among the reported constraint messages |
| Bootstrap.ValidationPipe | backend/src/main.ts:26-41 | passes iff validation finds no error; on failure throws the factory's exception for those errors; on success hands over the instance's email and password strings |
| Bootstrap.PipeOutput | backend/src/main.ts:26-41 | a handler receives a canonical email that matches the pattern and `isEmail`, and a password of 1 to 128 characters; at registration also an email of at most 255, and a strong whitespace-free password of at least 6 |
| Bootstrap.RejectionReply | backend/src/main.ts:34-39 | a rejected body answers 400 with the constraint messages of all errors joined by ", " ("Validation failed" if that is empty); that list holds the message of every failed decorator and the whitelist message of every undeclared field |
| Exceptions.Catch | backend/src/common/filters/http-exception.filter.ts:15-62 | status is the HttpException's or 500; severity is error iff status ≥ 500; an Error gives its message; any other thrown value gives "An error occurred"; a string response is used as it is; an array message is its elements joined by ", ", or "Validation failed" when that join is empty; a truthy non-array message is used, stringified if not a string; otherwise `exception.message` |
| Exceptions.BuiltInReply | backend/src/common/filters/http-exception.filter.ts:23-36 | a built-in exception made from a non-empty message answers its own status and that message |
| Exceptions.BadRequestReply | backend/src/common/filters/http-exception.filter.ts:31-33 | an array of messages is answered 400 with their ", " join, or "Validation failed" when the join is empty |
| UserService.RegisterCatch | backend/src/user/user.service.ts:55-65 | code 11000 becomes a 409 "Email already registered", any other failure a 500 "An error occurred while registering the user", and a thrown `null` a `TypeError` |
| UserService.Register | backend/src/user/user.service.ts:23-66 | succeeds iff the lookup works, the email is new, hashing works, no concurrent insert happens and `save` works; then exactly the new credential is stored and the response carries the email and `createdAt`; a lookup failure escapes unchanged; an existing email or a lost race is a 409; a failed hash, or a failed `save` without a race, is the `catch` block's exception for that error |
| UserService.Login | backend/src/user/user.service.ts:68-93 | succeeds iff the lookup works, the email is stored and bcrypt accepts; then it answers "Login successful" with the stored `createdAt`; an unknown email and a wrong password both raise 401 "Invalid email or password"; a failing lookup or a failing `bcrypt.compare` lets its own exception escape unchanged |
| UserService.FailedRegisterStoresNothing | backend/src/user/user.service.ts:27-65 | a failed registration never stores this request's credential and touches no other email |
| UserService.RegisterTouchesOnlyItsEmail | backend/src/user/user.service.ts:39-45 | a successful registration adds exactly the new email and keeps every other entry |
| UserService.RegisterKeys | backend/src/user/user.service.ts:23-66 | registration adds no email other than its own |
| UserService.RegisterThenLogin | backend/src/user/user.service.ts:36-92 | registering and then logging in with the same password succeeds with the stored `createdAt`, when bcrypt accepts the password against its own hash |
| UserService.SecondRegistrationConflicts | backend/src/user/user.service.ts:27-31 | registering an email a second time is a 409 and leaves the store unchanged |
| UserService.LoginFailuresIndistinguishable | backend/src/user/user.service.ts:72-83 | an unknown email and a wrong password produce the identical exception and the identical 401 reply |
| UserService.RaceRepliesLikePrecheck | backend/src/user/user.service.ts:57-60 | losing the race to a concurrent insert answers exactly as the pre-check does: 409 "Email already registered" |
| UserService.InternalFailureReply | backend/src/user/user.service.ts:61-64 | any other failure inside the `try` answers 500 with the fixed message, which does not disclose the cause |
| UserService.RegisterFailureStatus | backend/src/user/user.service.ts:27-65 | with the lookup working, a failed registration answers 409 or 500 |
| UserService.LoginFailureStatus | backend/src/user/user.service.ts:72-83 | with the lookup and bcrypt working, a failed login answers 401 "Invalid email or password" |
| UserController.RegisterAdmitted | backend/src/user/user.controller.ts:44-48 | after the guard, a pipe failure is answered by the filter with the collection unchanged; otherwise the collection is the service's result and the answer is 201 with the service's response, or the filter's reply to the service's exception; the guards are untouched |
| UserController.RegisterRequest | backend/src/user/user.controller.ts:22-48 | only the register guard (5/60000) changes; a refusal answers 429 and writes no user; an admitted request is answered as `RegisterAdmitted` answers the pipe's result, with the service reading `savedAt` |
| UserController.LoginAdmitted | backend/src/user/user.controller.ts:72-74 | after the guard, login changes no state; a pipe failure is answered by the filter; otherwise the answer is 200 with the service's response, or the filter's reply to the service's exception |
| UserController.LoginRequest | backend/src/user/user.controller.ts:50-74 | only the login guard (10/60000) changes; the users and the register guard are untouched; a refusal answers 429; an admitted request is answered as `LoginAdmitted` answers the pipe's result |
| UserController.RegisterStatuses | backend/src/user/user.controller.ts:22-48 | with the lookup working, registration answers 201, 400, 409, 429 or 500 |
| UserController.LoginStatuses | backend/src/user/user.controller.ts:50-74 | with the lookup and bcrypt working, login answers 200, 400, 401 or 429 |
| UserController.RegisterKeepsStoreCanonical | backend/src/user/user.service.ts:39-45 | registering a canonical email keeps every stored email canonical |
| UserController.RegisterKeepsUsersCanonical | backend/src/user/user.controller.ts:22-48 | every stored email stays lower-cased and trimmed across any registration request |
| UserController.RegisterWritesThroughService | backend/src/user/user.controller.ts:44-48 | the collection either stays as it was or becomes the service's result for a body that passed validation |
| UserController.LoginAcceptsRegisteredBody | backend/src/user/user.controller.ts:44-74 | a body registration accepts reaches login as the same email and password |
| UserController.RegisterCreated | backend/src/user/user.controller.ts:22-48 | a 201 means the guard admitted, validation passed, the service stored the account, and the body is the service's response with the normalised email |
| UserController.RegisterAnswersCreated | backend/src/user/user.controller.ts:22-48 | an admitted, valid sign-up that the service stores answers 201 with the service's response, and the collection is the service's |
| UserController.LoginAnswersOk | backend/src/user/user.controller.ts:50-74 | an admitted, valid login the service accepts answers 200 with the service's response unchanged |
| UserController.SignUpThenSignIn | backend/src/user/user.controller.ts:22-74 | signing up with a body and then signing in with the same body answers 200 with the stored account |
| UserController.RegisterAnswersConflict | backend/src/user/user.controller.ts:44-48 | an admitted, valid sign-up for a stored email answers 409 "Email already registered" and stores nothing |
| UserController.CaseVariantConflicts | backend/src/user/user.controller.ts:22-48 | after a sign-up, a second sign-up that normalises to the same email answers 409 |
| UserController.PipeEmail | backend/src/user/dto/register-user.dto.ts:15 | a string email in an accepted body reaches the service lower-cased and trimmed |
| UserController.CaseVariantsNormalizeAlike | backend/src/user/dto/register-user.dto.ts:15 | two emails that differ only in letter case and surrounding whitespace reach the service as the same email |
| Text.Trim | backend/src/common/pipes/trim.pipe.ts:18 | the result is the part of the input between a whitespace-only prefix and a whitespace-only suffix, and has no whitespace at either end |
| Text.TrimIdempotent | backend/src/common/pipes/trim.pipe.ts:18 | trimming twice is trimming once |
| Text.TrimPadding | backend/src/main.ts:12 | whitespace added around a string never survives trimming |
| Text.Split | backend/src/main.ts:12 | the pieces contain no separator, and joined with it they give back the input |
| Text.SplitJoin | backend/src/main.ts:12 | splitting a join of separator-free pieces gives back the pieces |
| TrimPipe.IsObj | backend/src/common/pipes/trim.pipe.ts:9-11 | `typeof` "object" that is neither `null` nor an array holds exactly for plain objects |
| TrimPipe.TrimMember | backend/src/common/pipes/trim.pipe.ts:15-19 | a string property becomes its trim; an object becomes the object of its fields each processed in turn, so nested objects are trimmed recursively; every other value is unchanged |
| TrimPipe.TrimFields | backend/src/common/pipes/trim.pipe.ts:13-22 | the same keys in the same order, each value processed in place |
| TrimPipe.Transform | backend/src/common/pipes/trim.pipe.ts:24-29 | a non-object input (string, number, null, array) is returned unchanged; an object is processed as `TrimMember` processes it |
| TrimPipe.GetTrimmed | backend/src/common/pipes/trim.pipe.ts:14-19 | reading a property of the trimmed object gives the processed property |
| TrimPipe.TrimMemberTrimmed | backend/src/common/pipes/trim.pipe.ts:13-22 | every string reachable through objects is trimmed in the output |
| TrimPipe.TrimMemberKeepsTrimmed | backend/src/common/pipes/trim.pipe.ts:13-22 | an already trimmed tree is left as it is |
| TrimPipe.TrimmedIsFixpoint | backend/src/common/pipes/trim.pipe.ts:13-22 | the pipe leaves a tree unchanged iff every string reachable through objects is already trimmed |
| TrimPipe.TransformIdempotent | backend/src/common/pipes/trim.pipe.ts:24-29 | applying the pipe twice equals applying it once |
| TrimPipe.ArrayStringsUntouched | backend/src/common/pipes/trim.pipe.ts:15-19 | a string inside an array-valued property is not trimmed |

## Left out

- Logging: every `Logger` call, the `errorLog` object and `console.log` are I/O; the filter's log level is kept as a `Severity`.
- `app.listen` and `PORT`: I/O.
- The CORS middleware's matching of request origins: library behaviour. Only the options passed to `enableCors` are modelled (`Bootstrap.Cors`).
- The user schema (`user.schema.ts`, with the unique index on `email`) is not part of this model. The unique index is the map key. A unique-index violation is the concurrent insert plus the fixed `DuplicateKeyError` with code 11000.
- MongoDB and bcrypt: their outcomes are inputs (`RegisterEnv`, `LoginEnv`). The salt rounds (10) and bcrypt's internals are not modelled.
- UserService.Register: the stored hash is the given outcome of `bcrypt.hash`, not a function of the password. "The hash is never the plaintext" is therefore not stated.
- UserController.LoginStatuses: requires `bcrypt.compare` never to fail. A rejected compare escapes unchanged to the filter.
- Concurrency: no threads or event loop. The one race modelled is a concurrent insert between `findOne` and `save`. The guard's read-modify-write is atomic because the state is threaded through.
- validator.js's `isEmail` is a predicate parameter, because its internals are library code. The email pattern and everything around it are modelled.
- Text.ToLower: only A-Z are lower-cased. `toLowerCase` on other scripts is not modelled.
- Validators.ValidateStrongPassword: the regular expression has no `u` flag, so `.{6,}` counts UTF-16 code units, but the model counts code points. For characters outside the Basic Multilingual Plane the model is therefore stricter than the source. Lone surrogates cannot occur in a Dafny string.
- Bodies that are not JSON objects, duplicate keys, prototype keys, and `Object.keys` ordering of integer-like keys: the body is an ordered list of distinct string-keyed fields.
- Floating-point numbers: JSON numbers are integers, and the model writes every number as its plain decimal text. JavaScript writes a number of 10^21 or more in exponent form (`String(1e100)` is "1e+100"), so for such a number the model's string differs. For example, a registration password given as the number `1e100` becomes "1e+100" in the source, which has a letter and a digit and passes; the model rejects it.
- `createdAt` is a number of milliseconds. The `Date` object and its ISO-string form in the JSON response are not modelled.
- Dtos.FailedMessages: its own contract states which messages are reported, not their order. The bottom-up order is stated by `Dtos.FailedMessagesStep` (bottom decorator first) and `Dtos.FailedMessagesTopLast` (top decorator last).
- Dtos.Validate: its own contract states when the list is empty and that no entry is empty. That every failure is reported, that only failures are reported, that whitelist entries come first, and that each part keeps its order are stated by `Dtos.ValidateReportsEveryFailure`, `Dtos.ValidateReportsOnlyFailures`, `Dtos.ValidateWhitelistFirst` and `Dtos.ValidateInOrder`.
- Dtos.PropertyErrors: its own contract states which properties are reported, not their order. Declaration order is stated by `Dtos.PropertyErrorsInOrder`.
- Dtos.WhitelistErrors: its own contract states which fields are reported, not their order. Body order is stated by `Dtos.WhitelistErrorsInOrder`.
- `IsNormalizedEmail`'s `defaultMessage`: no DTO uses the decorator, so only its `validate` predicate is modelled.
- `TrimPipe` is installed on no route, so it is modelled on its own and not composed into the request path.
- The Swagger decorators, the response DTO classes (kept only as the `AuthResponse` shape), the health controller, `app.module.ts` and the frontend: documentation, wiring and UI.

=== FILE: basics.dfy ===
/** Optional and fallible values shared by every module of the model. */
module Basics {

  /** A value that may be absent; `None` stands for JavaScript's `undefined`. */
  datatype Option<+T> = None | Some(value: T)

  /** The outcome of an operation that either returns or throws. */
  datatype Result<+T, +E> = Ok(value: T) | Err(error: E)
}

=== FILE: bootstrap.dfy ===
/**
 The application set-up in `main.ts` that decides behaviour: the CORS
 origin list derived from `FRONTEND_URL`, and the global `ValidationPipe`
 with its `exceptionFactory`.
 */
module Bootstrap {
  import opened Basics
  import opened Text
  import opened Json
  import opened Exceptions
  import opened Validators
  import opened Dtos

  // ---------------------------------------------------------------------------
  // CORS

  const DefaultFrontend := "http://localhost:5173"
  const SecondFrontend := "http://localhost:5174"

  /** `process.env.FRONTEND_URL || 'http://localhost:5173'`: an unset or
      empty variable falls back to the default. */
  function FrontendUrl(env: Option<string>): (url: string)
    ensures url != ""
    ensures env.Some? && env.value != "" ==> url == env.value
    ensures env.None? || env.value == "" ==> url == DefaultFrontend
  {
    if env.Some? && env.value != "" then env.value else DefaultFrontend
  }

  function TrimAll(parts: seq<string>): (r: seq<string>)
    ensures |r| == |parts|
    ensures forall i :: 0 <= i < |parts| ==> r[i] == Trim(parts[i])
  {
    seq(|parts|, i requires 0 <= i < |parts| => Trim(parts[i]))
  }

  /** The `origin` list: a comma-separated value is split and each piece
      trimmed, and then the local defaults are not added; a single value is
      followed by both local front-end addresses. */
  function AllowedOrigins(env: Option<string>): (origins: seq<string>)
    ensures ',' in FrontendUrl(env) ==> origins == TrimAll(Split(FrontendUrl(env), ','))
    ensures ',' in FrontendUrl(env) ==> |origins| >= 2
    ensures ',' !in FrontendUrl(env) ==> origins == [FrontendUrl(env), DefaultFrontend, SecondFrontend]
  {
    var url := FrontendUrl(env);
    if ',' in url then
      var parts := Split(url, ',');
      assert |parts| >= 2;
      TrimAll(parts)
    else [url, DefaultFrontend, SecondFrontend]
  }

  /** Several comma-free origins written with commas, each possibly padded
      with whitespace, come back as the trimmed origins and nothing else. */
  lemma OriginListRoundTrip(written: seq<string>)
    requires |written| >= 2
    requires forall k :: 0 <= k < |written| ==> ',' !in written[k]
    ensures AllowedOrigins(Some(Join(written, ","))) == TrimAll(written)
  {
    var url := Join(written, [',']);
    JoinSeparated(written, [',']);
    SplitJoin(written, ',');
    assert FrontendUrl(Some(url)) == url;
  }

  /** The join of at least two parts contains the separator. */
  lemma JoinSeparated(parts: seq<string>, sep: string)
    requires |parts| >= 2 && sep != []
    ensures sep[0] in Join(parts, sep)
  {
    var s := Join(parts, sep);
    assert s == parts[0] + sep + Join(parts[1..], sep);
    assert s[|parts[0]|] == sep[0];
  }

  /** The configured front end is always allowed. */
  lemma ConfiguredOriginAllowed(env: Option<string>)
    requires ',' !in FrontendUrl(env)
    ensures FrontendUrl(env) in AllowedOrigins(env)
    ensures DefaultFrontend in AllowedOrigins(env)
  {
  }

  /** Without `FRONTEND_URL` (or with an empty one) the default front end is
      listed twice. */
  lemma DefaultOriginsRepeat(env: Option<string>)
    requires env.None? || env == Some("")
    ensures AllowedOrigins(env) == [DefaultFrontend, DefaultFrontend, SecondFrontend]
  {
    assert ',' !in DefaultFrontend;
  }

  /** The `enableCors` options. */
  datatype CorsOptions = CorsOptions(origin: seq<string>, credentials: bool,
                                     methods: seq<string>, allowedHeaders: seq<string>)

  function Cors(env: Option<string>): (c: CorsOptions)
    ensures c.origin == AllowedOrigins(env) && c.credentials
  {
    CorsOptions(AllowedOrigins(env), true,
                ["GET", "POST", "PUT", "DELETE", "PATCH", "OPTIONS"],
                ["Content-Type", "Authorization"])
  }

  // ---------------------------------------------------------------------------
  // The global ValidationPipe

  /** `Object.values(error.constraints || {}).join(', ')` for every error. */
  function ErrorMessages(errors: seq<ValidationError>): (ms: seq<string>)
    ensures |ms| == |errors|
    ensures forall i :: 0 <= i < |errors| ==> ms[i] == Join(errors[i].constraints, ", ")
  {
    seq(|errors|, i requires 0 <= i < |errors| => Join(errors[i].constraints, ", "))
  }

  /** The `exceptionFactory`: a 400 whose message is the per-property texts,
      which the filter joins by ", " into the body the client reads. */
  function ExceptionFactory(errors: seq<ValidationError>): (e: Exception)
    ensures e.HttpException? && e.status == StatusBadRequest
    ensures BodyMessage(e) == Some(Arr(StringValues(ErrorMessages(errors))))
    ensures var joined := Join(ErrorMessages(errors), ", ");
            Catch(e) == Reply(StatusBadRequest, if joined == "" then EmptyValidationMessage else joined, LogWarn)
  {
    BadRequestReply(ErrorMessages(errors));
    BadRequestException(ErrorMessages(errors))
  }

  /** Every constraint message of every error, in order. */
  function AllConstraints(errors: seq<ValidationError>): (r: seq<string>)
  {
    if errors == [] then [] else errors[0].constraints + AllConstraints(errors[1..])
  }

  lemma {:induction false} JoinAppend(a: seq<string>, b: seq<string>, sep: string)
    requires a != [] && b != []
    ensures Join(a + b, sep) == Join(a, sep) + sep + Join(b, sep)
    decreases |a|
  {
    if |a| == 1 {
      assert (a + b)[1..] == b;
    } else {
      assert (a + b)[1..] == a[1..] + b;
      JoinAppend(a[1..], b, sep);
    }
  }

  /** Joining the per-property texts again with ", " is joining all
      messages at once, because no error has an empty constraint list. */
  lemma {:induction false} JoinOfJoins(errors: seq<ValidationError>)
    requires forall i :: 0 <= i < |errors| ==> errors[i].constraints != []
    ensures Join(ErrorMessages(errors), ", ") == Join(AllConstraints(errors), ", ")
    decreases |errors|
  {
    if |errors| > 1 {
      var tail := errors[1..];
      JoinOfJoins(tail);
      assert ErrorMessages(errors)[1..] == ErrorMessages(tail);
      assert AllConstraints(tail) != [] by { assert tail[0].constraints != []; }
      JoinAppend(errors[0].constraints, AllConstraints(tail), ", ");
    } else if |errors| == 1 {
      assert AllConstraints(errors) == errors[0].constraints + AllConstraints(errors[1..]);
      assert errors[1..] == [];
      assert AllConstraints(errors) == errors[0].constraints;
    }
  }

  /** The two routes that take a body, with the DTO each declares. */
  datatype Route = RegisterRoute | LoginRoute

  function DtoOf(route: Route): (dto: Dto)
    ensures dto == RegisterUserDto || dto == LoginUserDto
  {
    if route.RegisterRoute? then RegisterUserDto else LoginUserDto
  }

  /** The typed DTO the handlers receive. */
  datatype Credentials = Credentials(email: string, password: string)

  /** `ValidationPipe.transform` on a JSON object body: build the instance,
      validate it, and either hand the handler the two strings or throw. */
  function ValidationPipe(route: Route, body: seq<Field>, isEmail: string -> bool): (r: Result<Credentials, Exception>)
    ensures r.Ok? <==> Validate(DtoOf(route), Instantiate(DtoOf(route), body), isEmail) == []
    ensures r.Err? ==> r.error == ExceptionFactory(Validate(DtoOf(route), Instantiate(DtoOf(route), body), isEmail))
    ensures r.Ok? ==> InstanceValue(DtoOf(route), body, "email") == Some(Str(r.value.email))
                      && InstanceValue(DtoOf(route), body, "password") == Some(Str(r.value.password))
  {
    var dto := DtoOf(route);
    var errors := Validate(dto, Instantiate(dto, body), isEmail);
    if errors != [] then Err(ExceptionFactory(errors))
    else
      AcceptedStrings(dto, body, isEmail);
      Ok(Credentials(InstanceValue(dto, body, "email").value.s, InstanceValue(dto, body, "password").value.s))
  }

  /** What a handler receives: an email of the pattern that is already
      lower-cased and trimmed, and a password of at most 128 counted
      characters; at registration also a capped email and a strong,
      whitespace-free password of at least 6. */
  lemma PipeOutput(route: Route, body: seq<Field>, isEmail: string -> bool)
    requires ValidationPipe(route, body, isEmail).Ok?
    ensures var c := ValidationPipe(route, body, isEmail).value;
            && Canonical(c.email) && MatchesEmailPattern(c.email) && isEmail(c.email)
            && 1 <= Length(c.password) <= 128
            && (route.RegisterRoute? ==>
                  (Length(c.email) <= 255 && 6 <= Length(c.password)
                   && MatchesStrongPattern(c.password) && NoWhitespace(c.password)))
  {
    var dto := DtoOf(route);
    var c := ValidationPipe(route, body, isEmail).value;
    BodyAccepted(dto, body, isEmail);
    InstanceValues(dto, body);
    var e := InstanceValue(dto, body, "email");
    var p := InstanceValue(dto, body, "password");
    if route.RegisterRoute? {
      RegisterEmailAccepts(e, isEmail);
      RegisterPasswordAccepts(p, isEmail);
    } else {
      LoginEmailAccepts(e, isEmail);
      LoginPasswordAccepts(p, isEmail);
    }
  }

  /** A message in one error's list is in the flattened list. */
  lemma {:induction false} InAllConstraints(errors: seq<ValidationError>, j: int, m: string)
    requires 0 <= j < |errors| && m in errors[j].constraints
    ensures m in AllConstraints(errors)
    decreases |errors|
  {
    if j > 0 {
      assert errors[1..][j - 1] == errors[j];
      InAllConstraints(errors[1..], j - 1, m);
    }
  }

  /** For any DTO: the message of every failed decorator of a declared
      property is among the constraint messages validation reports. */
  lemma ReportedDecoratorMessages(dto: Dto, inst: seq<Field>, isEmail: string -> bool)
    ensures forall i, k :: 0 <= i < |dto.properties| && 0 <= k < |dto.properties[i].rules|
              && !Passes(dto.properties[i].rules[k].check, Get(inst, dto.properties[i].name), isEmail)
              ==> dto.properties[i].rules[k].message in AllConstraints(Validate(dto, inst, isEmail))
  {
    var errors := Validate(dto, inst, isEmail);
    ValidateReportsEveryFailure(dto, inst, isEmail);
    forall i, k | 0 <= i < |dto.properties| && 0 <= k < |dto.properties[i].rules|
                  && !Passes(dto.properties[i].rules[k].check, Get(inst, dto.properties[i].name), isEmail)
      ensures dto.properties[i].rules[k].message in AllConstraints(errors)
    {
      var p := dto.properties[i];
      var e := ErrorOf(p, inst, isEmail);
      assert p.rules[k].message in e.constraints;
      var j :| 0 <= j < |errors| && errors[j] == e;
      InAllConstraints(errors, j, p.rules[k].message);
    }
  }

  /** For any DTO: the whitelist message of every undeclared field is among
      the constraint messages validation reports. */
  lemma ReportedWhitelistMessages(dto: Dto, inst: seq<Field>, isEmail: string -> bool)
    ensures forall i :: 0 <= i < |inst| && Lookup(dto.properties, inst[i].key).None? ==>
              WhitelistMessage(inst[i].key) in AllConstraints(Validate(dto, inst, isEmail))
  {
    var errors := Validate(dto, inst, isEmail);
    ValidateReportsEveryFailure(dto, inst, isEmail);
    forall i | 0 <= i < |inst| && Lookup(dto.properties, inst[i].key).None?
      ensures WhitelistMessage(inst[i].key) in AllConstraints(errors)
    {
      var e := ValidationError(inst[i].key, [WhitelistMessage(inst[i].key)]);
      var j :| 0 <= j < |errors| && errors[j] == e;
      InAllConstraints(errors, j, WhitelistMessage(inst[i].key));
    }
  }

  /** A rejected body answers 400 with the constraint messages of all errors
      joined by ", ", whitelist errors first; that list holds the message of
      every failed decorator and of every undeclared field. */
  lemma RejectionReply(route: Route, body: seq<Field>, isEmail: string -> bool)
    requires ValidationPipe(route, body, isEmail).Err?
    ensures var dto := DtoOf(route);
            var inst := Instantiate(dto, body);
            var errors := Validate(dto, inst, isEmail);
            var joined := Join(AllConstraints(errors), ", ");
            && Catch(ValidationPipe(route, body, isEmail).error)
               == Reply(StatusBadRequest, if joined == "" then EmptyValidationMessage else joined, LogWarn)
            && Join(ErrorMessages(errors), ", ") == joined
            && (forall i, k :: 0 <= i < |dto.properties| && 0 <= k < |dto.properties[i].rules|
                  && !Passes(dto.properties[i].rules[k].check, Get(inst, dto.properties[i].name), isEmail)
                  ==> dto.properties[i].rules[k].message in AllConstraints(errors))
            && (forall i :: 0 <= i < |inst| && Lookup(dto.properties, inst[i].key).None? ==>
                  WhitelistMessage(inst[i].key) in AllConstraints(errors))
  {
    var dto := DtoOf(route);
    var inst := Instantiate(dto, body);
    var errors := Validate(dto, inst, isEmail);
    var w := WhitelistErrors(dto, inst);
    var ps := PropertyErrors(dto.properties, inst, isEmail);
    forall i | 0 <= i < |errors| ensures errors[i].constraints != [] {
      if i < |w| { assert errors[i] == w[i]; } else { assert errors[i] == ps[i - |w|]; }
    }
    JoinOfJoins(errors);
    ReportedDecoratorMessages(dto, inst, isEmail);
    ReportedWhitelistMessages(dto, inst, isEmail);
  }

}

=== FILE: dtos.dfy ===
/**
 `RegisterUserDto` and `LoginUserDto`: how the body is turned into a DTO
 instance (implicit conversion to the declared `string` type, then the email
 `@Transform`), and how class-validator checks that instance (whitelist
 errors first, then every property's failed constraints in decorator
 application order, which is bottom-up).
 */
module Dtos {
  import opened Basics
  import opened Text
  import opened Json
  import opened Validators

  // ---------------------------------------------------------------------------
  // Lengths as validator.js counts them

  /** U+FE0E and U+FE0F, which `isLength` does not count. */
  predicate IsVariationSelector(c: char) { c == '\U{FE0E}' || c == '\U{FE0F}' }

  function CountSelectors(s: string): (n: nat)
    ensures n <= |s|
    ensures n == 0 <==> forall i :: 0 <= i < |s| ==> !IsVariationSelector(s[i])
  {
    if s == [] then 0
    else
      assert forall i :: 1 <= i < |s| ==> s[i] == s[1..][i - 1];
      (if IsVariationSelector(s[0]) then 1 else 0) + CountSelectors(s[1..])
  }

  /** The length `MinLength` and `MaxLength` compare: code points, less the
      variation selectors. */
  function Length(s: string): nat {
    |s| - CountSelectors(s)
  }

  // ---------------------------------------------------------------------------
  // Constraints

  /** The class-validator decorators the DTOs use. */
  datatype Check =
    | IsEmail
    | IsNotEmpty
    | IsString
    | MinLength(min: nat)
    | MaxLength(max: nat)
      /** `Matches(/^[^\s@]+@[^\s@]+\.[^\s@]+$/)` */
    | MatchesEmail
      /** `Matches(/^[^\s]+$/)` */
    | MatchesNoWhitespace
    | IsStrongPassword

  /** A decorator with its `message` option. */
  datatype Rule = Rule(check: Check, message: string)

  /** Whether a value (`None` is `undefined`) satisfies a constraint.
      `isEmail` is validator.js's `isEmail` with default options. */
  function Passes(check: Check, v: Option<Value>, isEmail: string -> bool): (ok: bool)
    ensures ok && !check.IsNotEmpty? ==> v.Some? && v.value.Str?
    ensures check.IsNotEmpty? ==> (ok <==> v.Some? && !v.value.Null? && v.value != Str(""))
    ensures check.MatchesEmail? ==> (ok <==> v.Some? && v.value.Str? && MatchesEmailPattern(v.value.s))
    ensures check.IsStrongPassword? ==> (ok <==> v.Some? && v.value.Str? && MatchesStrongPattern(v.value.s))
    ensures check.MatchesNoWhitespace? ==> (ok <==> v.Some? && v.value.Str? && v.value.s != [] && NoWhitespace(v.value.s))
    ensures check.MinLength? ==> (ok <==> v.Some? && v.value.Str? && Length(v.value.s) >= check.min)
    ensures check.MaxLength? ==> (ok <==> v.Some? && v.value.Str? && Length(v.value.s) <= check.max)
  {
    match check
    case IsEmail => v.Some? && v.value.Str? && isEmail(v.value.s)
    case IsNotEmpty => v.Some? && !v.value.Null? && v.value != Str("")
    case IsString => v.Some? && v.value.Str?
    case MinLength(min) => v.Some? && v.value.Str? && Length(v.value.s) >= min
    case MaxLength(max) => v.Some? && v.value.Str? && Length(v.value.s) <= max
    case MatchesEmail =>
      if v.Some? && v.value.Str? then EmailPatternIsShape(v.value.s); IsEmailShape(v.value.s) else false
    case MatchesNoWhitespace => v.Some? && v.value.Str? && v.value.s != [] && NoWhitespace(v.value.s)
    case IsStrongPassword => ValidateStrongPassword(v)
  }

  /** The messages of the failed constraints of one property. `rules` lists
      the decorators top to bottom as written; they are applied, and so
      checked and reported, bottom to top. */
  function FailedMessages(rules: seq<Rule>, v: Option<Value>, isEmail: string -> bool): (ms: seq<string>)
    ensures |ms| <= |rules|
    ensures ms == [] <==> forall i :: 0 <= i < |rules| ==> Passes(rules[i].check, v, isEmail)
    ensures forall j :: 0 <= j < |ms| ==>
              exists i :: 0 <= i < |rules| && rules[i].message == ms[j] && !Passes(rules[i].check, v, isEmail)
    ensures forall i {:trigger rules[i].message in ms} ::
              0 <= i < |rules| && !Passes(rules[i].check, v, isEmail) ==> rules[i].message in ms
  {
    if rules == [] then []
    else
      var n := |rules| - 1;
      var rest := FailedMessages(rules[..n], v, isEmail);
      assert rules == rules[..n] + [rules[n]];
      FailedConsEmpty(rules[..n], rules[n], v, isEmail, rest);
      FailedConsSound(rules[..n], rules[n], v, isEmail, rest);
      FailedConsComplete(rules[..n], rules[n], v, isEmail, rest);
      assert FailedHead(rules[n], v, isEmail) == if Passes(rules[n].check, v, isEmail) then [] else [rules[n].message];
      (if Passes(rules[n].check, v, isEmail) then [] else [rules[n].message]) + rest
  }

  /** The message `FailedMessages` puts in front for the bottom decorator `r`. */
  function FailedHead(r: Rule, v: Option<Value>, isEmail: string -> bool): seq<string> {
    if Passes(r.check, v, isEmail) then [] else [r.message]
  }

  /** One step of `FailedMessages`: no message exactly when every check passes. */
  lemma FailedConsEmpty(above: seq<Rule>, r: Rule, v: Option<Value>, isEmail: string -> bool, rest: seq<string>)
    requires rest == [] <==> forall i :: 0 <= i < |above| ==> Passes(above[i].check, v, isEmail)
    ensures var rules := above + [r];
            FailedHead(r, v, isEmail) + rest == [] <==> forall i :: 0 <= i < |rules| ==> Passes(rules[i].check, v, isEmail)
  {
    var rules := above + [r];
    if FailedHead(r, v, isEmail) + rest == [] {
      forall i | 0 <= i < |rules| ensures Passes(rules[i].check, v, isEmail) {
        if i < |above| { assert rules[i] == above[i]; }
      }
    } else if FailedHead(r, v, isEmail) == [] {
      var i :| 0 <= i < |above| && !Passes(above[i].check, v, isEmail);
      assert rules[i] == above[i];
    } else {
      assert rules[|above|] == r;
    }
  }

  /** One step of `FailedMessages`: every message is that of a failed check. */
  lemma FailedConsSound(above: seq<Rule>, r: Rule, v: Option<Value>, isEmail: string -> bool, rest: seq<string>)
    requires forall j :: 0 <= j < |rest| ==>
               exists i :: 0 <= i < |above| && above[i].message == rest[j] && !Passes(above[i].check, v, isEmail)
    ensures forall j :: 0 <= j < |FailedHead(r, v, isEmail) + rest| ==>
              exists i :: 0 <= i < |above + [r]| && (above + [r])[i].message == (FailedHead(r, v, isEmail) + rest)[j]
                          && !Passes((above + [r])[i].check, v, isEmail)
  {
    var rules := above + [r];
    var head := FailedHead(r, v, isEmail);
    var ms := head + rest;
    forall j | 0 <= j < |ms|
      ensures exists i :: 0 <= i < |rules| && rules[i].message == ms[j] && !Passes(rules[i].check, v, isEmail)
    {
      if j < |head| {
        assert ms[j] == r.message && !Passes(r.check, v, isEmail);
        assert rules[|above|] == r;
      } else {
        assert ms[j] == rest[j - |head|];
        var i :| 0 <= i < |above| && above[i].message == rest[j - |head|] && !Passes(above[i].check, v, isEmail);
        assert rules[i] == above[i];
      }
    }
    assert ms == FailedHead(r, v, isEmail) + rest;
    assert forall j :: 0 <= j < |ms| ==>
      exists i :: 0 <= i < |rules| && rules[i].message == ms[j] && !Passes(rules[i].check, v, isEmail);
  }

  /** One step of `FailedMessages`: every failed check has its message. */
  lemma FailedConsComplete(above: seq<Rule>, r: Rule, v: Option<Value>, isEmail: string -> bool, rest: seq<string>)
    requires forall i {:trigger above[i].message in rest} ::
               0 <= i < |above| && !Passes(above[i].check, v, isEmail) ==> above[i].message in rest
    ensures var rules := above + [r];
            forall i {:trigger rules[i].message in FailedHead(r, v, isEmail) + rest} ::
              0 <= i < |rules| && !Passes(rules[i].check, v, isEmail) ==> rules[i].message in FailedHead(r, v, isEmail) + rest
  {
    var rules := above + [r];
    var ms := FailedHead(r, v, isEmail) + rest;
    forall i | 0 <= i < |rules| && !Passes(rules[i].check, v, isEmail)
      ensures rules[i].message in ms
    {
      if i < |above| {
        assert rules[i] == above[i];
        assert above[i].message in rest;
      } else {
        assert rules[i] == r;
        assert ms[0] == r.message;
      }
    }
  }

  // ---------------------------------------------------------------------------
  // The two DTOs

  /** A declared property: its name, whether it carries the email
      `@Transform`, and its validation decorators as written. */
  datatype Property = Property(name: string, normalized: bool, rules: seq<Rule>)

  datatype Dto = Dto(properties: seq<Property>)

  const RegisterEmailRules: seq<Rule> := [
    Rule(IsEmail, "Please provide a valid email address"),
    Rule(IsNotEmpty, "Email is required"),
    Rule(MaxLength(255), "Email must not exceed 255 characters"),
    Rule(MatchesEmail, "Email must be a valid email address format")
  ]

  const RegisterPasswordRules: seq<Rule> := [
    Rule(IsString, "Password must be a string"),
    Rule(IsNotEmpty, "Password is required"),
    Rule(MinLength(6), "Password must be at least 6 characters long"),
    Rule(MaxLength(128), "Password must not exceed 128 characters"),
    Rule(IsStrongPassword, "Password must contain at least one letter and one number"),
    Rule(MatchesNoWhitespace, "Password cannot contain whitespace")
  ]

  const LoginEmailRules: seq<Rule> := [
    Rule(IsEmail, "Please provide a valid email address"),
    Rule(IsNotEmpty, "Email is required"),
    Rule(MatchesEmail, "Email must be a valid email address format")
  ]

  const LoginPasswordRules: seq<Rule> := [
    Rule(IsString, "Password must be a string"),
    Rule(IsNotEmpty, "Password is required"),
    Rule(MinLength(1), "Password is required"),
    Rule(MaxLength(128), "Password must not exceed 128 characters")
  ]

  const RegisterUserDto := Dto([Property("email", true, RegisterEmailRules),
                                Property("password", false, RegisterPasswordRules)])

  const LoginUserDto := Dto([Property("email", true, LoginEmailRules),
                             Property("password", false, LoginPasswordRules)])

  // ---------------------------------------------------------------------------
  // Building the instance (class-transformer with implicit conversion)

  /** Conversion of a value to the declared `string` type: `null` stays,
      arrays keep their shape with converted elements, everything else goes
      through `String(value)`. */
  function ImplicitString(v: Value): (w: Value)
    ensures v.Str? ==> w == v
    ensures !v.Null? && !v.Arr? ==> w.Str?
    ensures v.Null? <==> w.Null?
    ensures v.Arr? <==> w.Arr?
    decreases v
  {
    match v
    case Null => Null
    case Bool(b) => Str(if b then "true" else "false")
    case Num(n) => Str(DecimalText(n))
    case Str(_) => v
    case Arr(items) => Arr(seq(|items|, i requires 0 <= i < |items| => ImplicitString(items[i])))
    case Obj(_) => Str("[object Object]")
  }

  function Lookup(props: seq<Property>, key: string): (p: Option<Property>)
    ensures p.Some? ==> p.value in props && p.value.name == key
    ensures p.None? <==> forall i :: 0 <= i < |props| ==> props[i].name != key
  {
    if props == [] then None
    else if props[0].name == key then Some(props[0])
    else
      var p := Lookup(props[1..], key);
      assert forall i :: 1 <= i < |props| ==> props[i] == props[1..][i - 1];
      p
  }

  /** The instance's value for one body field: declared properties are
      converted to `string` and then, for the email, lower-cased and trimmed
      when the result is a string; undeclared fields are copied. */
  function Transformed(dto: Dto, key: string, v: Value): Value {
    match Lookup(dto.properties, key)
    case None => v
    case Some(p) =>
      var w := ImplicitString(v);
      if p.normalized && w.Str? then Str(NormalizeEmail(w.s)) else w
  }

  /** `plainToInstance`: the body's fields in their order, each transformed. */
  function Instantiate(dto: Dto, body: seq<Field>): (inst: seq<Field>)
    ensures |inst| == |body|
    ensures forall i :: 0 <= i < |body| ==>
              inst[i] == Field(body[i].key, Transformed(dto, body[i].key, body[i].value))
  {
    seq(|body|, i requires 0 <= i < |body| => Field(body[i].key, Transformed(dto, body[i].key, body[i].value)))
  }

  /** A property of the instance is the transformed property of the body. */
  lemma {:induction false} GetInstantiate(dto: Dto, body: seq<Field>, key: string)
    ensures Get(Instantiate(dto, body), key)
         == (if Get(body, key).Some? then Some(Transformed(dto, key, Get(body, key).value)) else None)
    decreases |body|
  {
    if body != [] {
      assert Instantiate(dto, body)[1..] == Instantiate(dto, body[1..]);
      GetInstantiate(dto, body[1..], key);
    }
  }

  // ---------------------------------------------------------------------------
  // class-validator

  /** One entry of the error list: the property and the messages of its
      failed constraints, in the order `Object.values` yields them. */
  datatype ValidationError = ValidationError(property: string, constraints: seq<string>)

  function WhitelistMessage(key: string): string {
    "property " + key + " should not exist"
  }

  /** The entry `forbidNonWhitelisted` makes for an undeclared key. */
  function UndeclaredError(key: string): ValidationError {
    ValidationError(key, [WhitelistMessage(key)])
  }

  /** `forbidNonWhitelisted`: one error per field that no property declares. */
  function WhitelistErrors(dto: Dto, inst: seq<Field>): (errs: seq<ValidationError>)
    ensures |errs| <= |inst|
    ensures errs == [] <==> forall i :: 0 <= i < |inst| ==> Lookup(dto.properties, inst[i].key).Some?
    ensures forall j :: 0 <= j < |errs| ==>
              Lookup(dto.properties, errs[j].property).None? && errs[j].property in Keys(inst)
              && errs[j].constraints == [WhitelistMessage(errs[j].property)]
    ensures forall i :: 0 <= i < |inst| && Lookup(dto.properties, inst[i].key).None? ==>
              ValidationError(inst[i].key, [WhitelistMessage(inst[i].key)]) in errs
  {
    var declared := (k: string) => Lookup(dto.properties, k).Some?;
    assert forall i :: 0 <= i < |inst| ==> declared(inst[i].key) == Lookup(dto.properties, inst[i].key).Some?;
    UndeclaredFacts(inst, declared);
    Undeclared(inst, declared)
  }

  /** The entries `UndeclaredError(key)` of the fields of `inst` whose key
      is not `declared`, in field order. */
  function Undeclared(inst: seq<Field>, declared: string -> bool): seq<ValidationError> {
    if inst == [] then []
    else UndeclaredHead(inst[0], declared) + Undeclared(inst[1..], declared)
  }

  /** Which entries `Undeclared` makes: one for each undeclared field and
      no other. */
  lemma {:induction false} UndeclaredFacts(inst: seq<Field>, declared: string -> bool)
    ensures var errs := Undeclared(inst, declared);
            && |errs| <= |inst|
            && (errs == [] <==> forall i :: 0 <= i < |inst| ==> declared(inst[i].key))
            && (forall j :: 0 <= j < |errs| ==>
                  !declared(errs[j].property) && errs[j].property in Keys(inst)
                  && errs[j].constraints == [WhitelistMessage(errs[j].property)])
            && (forall i :: 0 <= i < |inst| && !declared(inst[i].key) ==> UndeclaredError(inst[i].key) in errs)
  {
    if inst != [] {
      var rest := Undeclared(inst[1..], declared);
      UndeclaredFacts(inst[1..], declared);
      assert inst == [inst[0]] + inst[1..];
      UndeclaredConsEmpty(inst[0], inst[1..], declared, rest);
      UndeclaredConsSound(inst[0], inst[1..], declared, rest);
      UndeclaredConsComplete(inst[0], inst[1..], declared, rest);
    }
  }

  /** The entry `Undeclared` puts in front for the field `f`. */
  function UndeclaredHead(f: Field, declared: string -> bool): seq<ValidationError> {
    if declared(f.key) then [] else [UndeclaredError(f.key)]
  }

  /** One step of `Undeclared`: the list stays empty exactly while every
      field is declared. */
  lemma UndeclaredConsEmpty(f: Field, tail: seq<Field>, declared: string -> bool, rest: seq<ValidationError>)
    requires rest == [] <==> forall i :: 0 <= i < |tail| ==> declared(tail[i].key)
    ensures var inst := [f] + tail;
            UndeclaredHead(f, declared) + rest == [] <==> forall i :: 0 <= i < |inst| ==> declared(inst[i].key)
  {
    var inst := [f] + tail;
    if UndeclaredHead(f, declared) + rest == [] {
      forall i | 0 <= i < |inst| ensures declared(inst[i].key) {
        if i > 0 { assert inst[i] == tail[i - 1]; }
      }
    } else if UndeclaredHead(f, declared) == [] {
      var i :| 0 <= i < |tail| && !declared(tail[i].key);
      assert inst[i + 1] == tail[i];
    } else {
      assert inst[0] == f;
    }
  }

  /** One step of `Undeclared`: every entry names an undeclared field and
      carries only the whitelist message. */
  lemma UndeclaredConsSound(f: Field, tail: seq<Field>, declared: string -> bool, rest: seq<ValidationError>)
    requires forall j :: 0 <= j < |rest| ==>
               !declared(rest[j].property) && rest[j].property in Keys(tail)
               && rest[j].constraints == [WhitelistMessage(rest[j].property)]
    ensures var errs := UndeclaredHead(f, declared) + rest;
            forall j :: 0 <= j < |errs| ==>
              !declared(errs[j].property) && errs[j].property in Keys([f] + tail)
              && errs[j].constraints == [WhitelistMessage(errs[j].property)]
  {
    var head := UndeclaredHead(f, declared);
    var errs := head + rest;
    assert Keys([f] + tail) == [f.key] + Keys(tail);
    forall j | 0 <= j < |errs|
      ensures !declared(errs[j].property) && errs[j].property in Keys([f] + tail)
              && errs[j].constraints == [WhitelistMessage(errs[j].property)]
    {
      if j >= |head| { assert errs[j] == rest[j - |head|]; }
    }
  }

  /** One step of `Undeclared`: every undeclared field has its entry. */
  lemma UndeclaredConsComplete(f: Field, tail: seq<Field>, declared: string -> bool, rest: seq<ValidationError>)
    requires forall i :: 0 <= i < |tail| && !declared(tail[i].key) ==> UndeclaredError(tail[i].key) in rest
    ensures var inst := [f] + tail;
            forall i :: 0 <= i < |inst| && !declared(inst[i].key) ==>
              UndeclaredError(inst[i].key) in UndeclaredHead(f, declared) + rest
  {
    var inst := [f] + tail;
    var errs := UndeclaredHead(f, declared) + rest;
    forall i | 0 <= i < |inst| && !declared(inst[i].key) ensures UndeclaredError(inst[i].key) in errs {
      if i == 0 { assert errs[0] == UndeclaredError(f.key); }
      else { assert inst[i] == tail[i - 1]; }
    }
  }

  /** The entry class-validator builds for one declared property. */
  function ErrorOf(p: Property, inst: seq<Field>, isEmail: string -> bool): ValidationError {
    ValidationError(p.name, FailedMessages(p.rules, Get(inst, p.name), isEmail))
  }

  /** The entries `f(p)` of the properties `p` of `props`, in order,
      leaving out those without a failed constraint. */
  function Entries(props: seq<Property>, f: Property -> ValidationError): seq<ValidationError> {
    if props == [] then []
    else (if f(props[0]).constraints == [] then [] else [f(props[0])]) + Entries(props[1..], f)
  }

  /** Which entries `Entries` makes: one for each property with a failed
      constraint and no other. */
  lemma {:induction false} EntriesFacts(props: seq<Property>, f: Property -> ValidationError)
    ensures var errs := Entries(props, f);
            && |errs| <= |props|
            && (errs == [] <==> forall i :: 0 <= i < |props| ==> f(props[i]).constraints == [])
            && (forall j :: 0 <= j < |errs| ==> errs[j].constraints != [])
            && (forall j :: 0 <= j < |errs| ==> exists i :: 0 <= i < |props| && errs[j] == f(props[i]))
            && (forall i :: 0 <= i < |props| && f(props[i]).constraints != [] ==> f(props[i]) in errs)
  {
    if props != [] {
      var rest := Entries(props[1..], f);
      EntriesFacts(props[1..], f);
      assert props == [props[0]] + props[1..];
      ConsEntries(props[0], props[1..], f, rest);
    }
  }

  /** Prepending the entry of `p`, when it has failed constraints, keeps
      every entry tied to a property and every failing property reported. */
  lemma ConsEntries(p: Property, tail: seq<Property>, f: Property -> ValidationError, rest: seq<ValidationError>)
    requires rest == [] <==> forall i :: 0 <= i < |tail| ==> f(tail[i]).constraints == []
    requires forall j :: 0 <= j < |rest| ==> exists i :: 0 <= i < |tail| && rest[j] == f(tail[i])
    requires forall i :: 0 <= i < |tail| && f(tail[i]).constraints != [] ==> f(tail[i]) in rest
    requires forall j :: 0 <= j < |rest| ==> rest[j].constraints != []
    ensures var props := [p] + tail;
            var errs := (if f(p).constraints == [] then [] else [f(p)]) + rest;
            && (errs == [] <==> forall i :: 0 <= i < |props| ==> f(props[i]).constraints == [])
            && (forall j :: 0 <= j < |errs| ==> errs[j].constraints != [])
            && (forall j :: 0 <= j < |errs| ==> exists i :: 0 <= i < |props| && errs[j] == f(props[i]))
            && (forall i :: 0 <= i < |props| && f(props[i]).constraints != [] ==> f(props[i]) in errs)
  {
    var props := [p] + tail;
    var head := if f(p).constraints == [] then [] else [f(p)];
    var errs := head + rest;
    forall j | 0 <= j < |errs| ensures exists i :: 0 <= i < |props| && errs[j] == f(props[i]) {
      if j < |head| {
        assert errs[j] == f(props[0]);
      } else {
        assert errs[j] == rest[j - |head|];
        var i' :| 0 <= i' < |tail| && rest[j - |head|] == f(tail[i']);
        assert props[i' + 1] == tail[i'];
      }
    }
    forall i | 0 <= i < |props| && f(props[i]).constraints != [] ensures f(props[i]) in errs {
      if i == 0 {
        assert errs[0] == f(p);
      } else {
        assert props[i] == tail[i - 1];
      }
    }
    forall j | 0 <= j < |errs| ensures errs[j].constraints != [] {
      if j >= |head| { assert errs[j] == rest[j - |head|]; }
    }
    if errs == [] {
      forall i | 0 <= i < |props| ensures f(props[i]).constraints == [] {
        if i > 0 { assert props[i] == tail[i - 1]; }
      }
    } else if head == [] {
      var i :| 0 <= i < |tail| && f(tail[i]).constraints != [];
      assert props[i + 1] == tail[i];
    } else {
      assert props[0] == p;
    }
    assert errs == (if f(p).constraints == [] then [] else [f(p)]) + rest;
  }

  /** The errors of the declared properties, in declaration order; a
      property without failures produces no entry. */
  function PropertyErrors(props: seq<Property>, inst: seq<Field>, isEmail: string -> bool): (errs: seq<ValidationError>)
    ensures |errs| <= |props|
    ensures errs == [] <==>
              forall i :: 0 <= i < |props| ==> FailedMessages(props[i].rules, Get(inst, props[i].name), isEmail) == []
    ensures forall j :: 0 <= j < |errs| ==> errs[j].constraints != []
    ensures forall j :: 0 <= j < |errs| ==> exists i :: 0 <= i < |props| && errs[j] == ErrorOf(props[i], inst, isEmail)
    ensures forall i :: 0 <= i < |props| && ErrorOf(props[i], inst, isEmail).constraints != [] ==>
              ErrorOf(props[i], inst, isEmail) in errs
  {
    var f := (q: Property) => ErrorOf(q, inst, isEmail);
    assert forall i :: 0 <= i < |props| ==> f(props[i]) == ErrorOf(props[i], inst, isEmail);
    EntriesFacts(props, f);
    Entries(props, f)
  }

  /** `validate(instance, {whitelist: true, forbidNonWhitelisted: true})`. */
  function Validate(dto: Dto, inst: seq<Field>, isEmail: string -> bool): (errs: seq<ValidationError>)
    ensures errs == [] <==>
              (forall i :: 0 <= i < |inst| ==> Lookup(dto.properties, inst[i].key).Some?)
              && (forall i :: 0 <= i < |dto.properties| ==>
                    FailedMessages(dto.properties[i].rules, Get(inst, dto.properties[i].name), isEmail) == [])
    ensures forall j :: 0 <= j < |errs| ==> errs[j].constraints != []
  {
    WhitelistErrors(dto, inst) + PropertyErrors(dto.properties, inst, isEmail)
  }

  /** Nothing is dropped: every undeclared field has its whitelist entry and
      every failing property its entry of failed messages. */
  lemma ValidateReportsEveryFailure(dto: Dto, inst: seq<Field>, isEmail: string -> bool)
    ensures forall i :: 0 <= i < |inst| && Lookup(dto.properties, inst[i].key).None? ==>
              ValidationError(inst[i].key, [WhitelistMessage(inst[i].key)]) in Validate(dto, inst, isEmail)
    ensures forall i :: 0 <= i < |dto.properties| && ErrorOf(dto.properties[i], inst, isEmail).constraints != [] ==>
              ErrorOf(dto.properties[i], inst, isEmail) in Validate(dto, inst, isEmail)
  {
    var w := WhitelistErrors(dto, inst);
    var ps := PropertyErrors(dto.properties, inst, isEmail);
    assert Validate(dto, inst, isEmail) == w + ps;
  }

  /** The entry `forbidNonWhitelisted` makes for an undeclared field of the body. */
  predicate WhitelistEntry(dto: Dto, inst: seq<Field>, e: ValidationError) {
    Lookup(dto.properties, e.property).None? && e.property in Keys(inst)
    && e.constraints == [WhitelistMessage(e.property)]
  }

  /** The entry of one of the declared properties. */
  predicate PropertyEntry(dto: Dto, inst: seq<Field>, isEmail: string -> bool, e: ValidationError) {
    exists i :: 0 <= i < |dto.properties| && e == ErrorOf(dto.properties[i], inst, isEmail)
  }

  /** Nothing is invented: each entry is the whitelist entry of an
      undeclared field or the entry of a declared property. */
  lemma ValidateReportsOnlyFailures(dto: Dto, inst: seq<Field>, isEmail: string -> bool)
    ensures var errs := Validate(dto, inst, isEmail);
            forall j :: 0 <= j < |errs| ==> WhitelistEntry(dto, inst, errs[j]) || PropertyEntry(dto, inst, isEmail, errs[j])
  {
    var w := WhitelistErrors(dto, inst);
    var ps := PropertyErrors(dto.properties, inst, isEmail);
    var errs := w + ps;
    assert Validate(dto, inst, isEmail) == errs;
    forall j | 0 <= j < |errs| ensures WhitelistEntry(dto, inst, errs[j]) || PropertyEntry(dto, inst, isEmail, errs[j]) {
      EntryOfConcat(w, ps, j);
    }
  }

  /** An entry of `w + ps` is an entry of `w` or of `ps`. */
  lemma EntryOfConcat(w: seq<ValidationError>, ps: seq<ValidationError>, j: int)
    requires 0 <= j < |w + ps|
    ensures j < |w| ==> (w + ps)[j] == w[j]
    ensures |w| <= j ==> (w + ps)[j] == ps[j - |w|]
  {
  }

  /** Whitelist entries come first: an entry for an undeclared name is
      preceded only by entries for undeclared names. */
  lemma ValidateWhitelistFirst(dto: Dto, inst: seq<Field>, isEmail: string -> bool)
    ensures var errs := Validate(dto, inst, isEmail);
            forall j, k :: 0 <= j < k < |errs| && Lookup(dto.properties, errs[k].property).None? ==>
              Lookup(dto.properties, errs[j].property).None?
  {
    var w := WhitelistErrors(dto, inst);
    var ps := PropertyErrors(dto.properties, inst, isEmail);
    assert Validate(dto, inst, isEmail) == w + ps;
    forall j | 0 <= j < |ps| ensures Lookup(dto.properties, ps[j].property).Some? {
      var i :| 0 <= i < |dto.properties| && ps[j] == ErrorOf(dto.properties[i], inst, isEmail);
    }
  }

  /** `x` is reported at an earlier position of `errs` than `y`. */
  predicate ReportedBefore(errs: seq<ValidationError>, x: ValidationError, y: ValidationError) {
    exists a, b :: 0 <= a < b < |errs| && errs[a] == x && errs[b] == y
  }

  /** An order fact survives putting entries in front of the list. */
  lemma ReportedBeforeShift(head: seq<ValidationError>, rest: seq<ValidationError>, x: ValidationError, y: ValidationError)
    requires ReportedBefore(rest, x, y)
    ensures ReportedBefore(head + rest, x, y)
  {
    var a, b :| 0 <= a < b < |rest| && rest[a] == x && rest[b] == y;
    assert (head + rest)[|head| + a] == x && (head + rest)[|head| + b] == y;
  }

  /** An entry put in front is reported before every entry of the rest. */
  lemma ReportedBeforeHead(x: ValidationError, rest: seq<ValidationError>, y: ValidationError)
    requires y in rest
    ensures ReportedBefore([x] + rest, x, y)
  {
    var b :| 0 <= b < |rest| && rest[b] == y;
    assert ([x] + rest)[0] == x && ([x] + rest)[1 + b] == y;
  }

  /** `Entries` keeps the order of `props`: of two reported properties,
      the one declared first is reported first. */
  lemma {:induction false} EntriesInOrder(props: seq<Property>, f: Property -> ValidationError, i: int, k: int)
    requires 0 <= i < k < |props|
    requires f(props[i]).constraints != [] && f(props[k]).constraints != []
    ensures ReportedBefore(Entries(props, f), f(props[i]), f(props[k]))
    decreases |props|
  {
    var rest := Entries(props[1..], f);
    var head := if f(props[0]).constraints == [] then [] else [f(props[0])];
    assert props[k] == props[1..][k - 1];
    if i == 0 {
      EntriesFacts(props[1..], f);
      assert f(props[k]) in rest;
      ReportedBeforeHead(f(props[i]), rest, f(props[k]));
    } else {
      assert props[i] == props[1..][i - 1];
      EntriesInOrder(props[1..], f, i - 1, k - 1);
      ReportedBeforeShift(head, rest, f(props[i]), f(props[k]));
    }
  }

  /** class-validator reports the declared properties in declaration order. */
  lemma PropertyErrorsInOrder(props: seq<Property>, inst: seq<Field>, isEmail: string -> bool, i: int, k: int)
    requires 0 <= i < k < |props|
    requires ErrorOf(props[i], inst, isEmail).constraints != [] && ErrorOf(props[k], inst, isEmail).constraints != []
    ensures ReportedBefore(PropertyErrors(props, inst, isEmail), ErrorOf(props[i], inst, isEmail), ErrorOf(props[k], inst, isEmail))
  {
    var f := (q: Property) => ErrorOf(q, inst, isEmail);
    assert PropertyErrors(props, inst, isEmail) == Entries(props, f);
    EntriesInOrder(props, f, i, k);
  }

  /** `Undeclared` keeps the order of `inst`: of two undeclared fields,
      the one written first is reported first. */
  lemma {:induction false} UndeclaredInOrder(inst: seq<Field>, declared: string -> bool, i: int, k: int)
    requires 0 <= i < k < |inst|
    requires !declared(inst[i].key) && !declared(inst[k].key)
    ensures ReportedBefore(Undeclared(inst, declared), UndeclaredError(inst[i].key), UndeclaredError(inst[k].key))
    decreases |inst|
  {
    var rest := Undeclared(inst[1..], declared);
    var head := UndeclaredHead(inst[0], declared);
    assert inst[k] == inst[1..][k - 1];
    if i == 0 {
      UndeclaredFacts(inst[1..], declared);
      assert UndeclaredError(inst[k].key) in rest;
      ReportedBeforeHead(UndeclaredError(inst[i].key), rest, UndeclaredError(inst[k].key));
    } else {
      assert inst[i] == inst[1..][i - 1];
      UndeclaredInOrder(inst[1..], declared, i - 1, k - 1);
      ReportedBeforeShift(head, rest, UndeclaredError(inst[i].key), UndeclaredError(inst[k].key));
    }
  }

  /** class-validator reports the undeclared fields in body order. */
  lemma WhitelistErrorsInOrder(dto: Dto, inst: seq<Field>, i: int, k: int)
    requires 0 <= i < k < |inst|
    requires Lookup(dto.properties, inst[i].key).None? && Lookup(dto.properties, inst[k].key).None?
    ensures ReportedBefore(WhitelistErrors(dto, inst), UndeclaredError(inst[i].key), UndeclaredError(inst[k].key))
  {
    var declared := (k: string) => Lookup(dto.properties, k).Some?;
    assert WhitelistErrors(dto, inst) == Undeclared(inst, declared);
    UndeclaredInOrder(inst, declared, i, k);
  }

  /** In the full list, undeclared fields come in body order and declared
      properties in declaration order. */
  lemma ValidateInOrder(dto: Dto, inst: seq<Field>, isEmail: string -> bool)
    ensures forall i, k {:trigger inst[i], inst[k]} ::
              0 <= i < k < |inst| && Lookup(dto.properties, inst[i].key).None? && Lookup(dto.properties, inst[k].key).None?
              ==> ReportedBefore(Validate(dto, inst, isEmail), UndeclaredError(inst[i].key), UndeclaredError(inst[k].key))
    ensures forall i, k {:trigger dto.properties[i], dto.properties[k]} ::
              0 <= i < k < |dto.properties|
              && ErrorOf(dto.properties[i], inst, isEmail).constraints != []
              && ErrorOf(dto.properties[k], inst, isEmail).constraints != []
              ==> ReportedBefore(Validate(dto, inst, isEmail), ErrorOf(dto.properties[i], inst, isEmail),
                                 ErrorOf(dto.properties[k], inst, isEmail))
  {
    var w := WhitelistErrors(dto, inst);
    var ps := PropertyErrors(dto.properties, inst, isEmail);
    assert Validate(dto, inst, isEmail) == w + ps;
    forall i, k | 0 <= i < k < |inst| && Lookup(dto.properties, inst[i].key).None? && Lookup(dto.properties, inst[k].key).None?
      ensures ReportedBefore(w + ps, UndeclaredError(inst[i].key), UndeclaredError(inst[k].key))
    {
      WhitelistErrorsInOrder(dto, inst, i, k);
      var a, b :| 0 <= a < b < |w| && w[a] == UndeclaredError(inst[i].key) && w[b] == UndeclaredError(inst[k].key);
      assert (w + ps)[a] == w[a] && (w + ps)[b] == w[b];
    }
    forall i, k | 0 <= i < k < |dto.properties|
                  && ErrorOf(dto.properties[i], inst, isEmail).constraints != []
                  && ErrorOf(dto.properties[k], inst, isEmail).constraints != []
      ensures ReportedBefore(w + ps, ErrorOf(dto.properties[i], inst, isEmail), ErrorOf(dto.properties[k], inst, isEmail))
    {
      PropertyErrorsInOrder(dto.properties, inst, isEmail, i, k);
      ReportedBeforeShift(w, ps, ErrorOf(dto.properties[i], inst, isEmail), ErrorOf(dto.properties[k], inst, isEmail));
    }
  }

  // ---------------------------------------------------------------------------
  // What each DTO accepts

  /** The registration email constraints in plain words. */
  lemma RegisterEmailAccepts(v: Option<Value>, isEmail: string -> bool)
    ensures FailedMessages(RegisterEmailRules, v, isEmail) == []
        <==> v.Some? && v.value.Str? && MatchesEmailPattern(v.value.s)
             && Length(v.value.s) <= 255 && isEmail(v.value.s)
  {
    var rs := RegisterEmailRules;
    if v.Some? && v.value.Str? && MatchesEmailPattern(v.value.s) {
      assert v.value.s != [];
    }
    assert rs[0].check == IsEmail && rs[1].check == IsNotEmpty;
    assert rs[2].check == MaxLength(255) && rs[3].check == MatchesEmail;
  }

  /** The registration password constraints in plain words. */
  lemma RegisterPasswordAccepts(v: Option<Value>, isEmail: string -> bool)
    ensures FailedMessages(RegisterPasswordRules, v, isEmail) == []
        <==> v.Some? && v.value.Str? && 6 <= Length(v.value.s) <= 128
             && MatchesStrongPattern(v.value.s) && NoWhitespace(v.value.s)
  {
    var rs := RegisterPasswordRules;
    assert rs[0].check == IsString && rs[1].check == IsNotEmpty && rs[2].check == MinLength(6);
    assert rs[3].check == MaxLength(128) && rs[4].check == IsStrongPassword;
    assert rs[5].check == MatchesNoWhitespace;
    assert FailedMessages(rs, v, isEmail) == []
       <==> Passes(IsString, v, isEmail) && Passes(IsNotEmpty, v, isEmail) && Passes(MinLength(6), v, isEmail)
            && Passes(MaxLength(128), v, isEmail) && Passes(IsStrongPassword, v, isEmail)
            && Passes(MatchesNoWhitespace, v, isEmail);
  }

  /** The login email constraints in plain words: no length cap. */
  lemma LoginEmailAccepts(v: Option<Value>, isEmail: string -> bool)
    ensures FailedMessages(LoginEmailRules, v, isEmail) == []
        <==> v.Some? && v.value.Str? && MatchesEmailPattern(v.value.s) && isEmail(v.value.s)
  {
    var rs := LoginEmailRules;
    if v.Some? && v.value.Str? && MatchesEmailPattern(v.value.s) {
      assert v.value.s != [];
    }
    assert rs[0].check == IsEmail && rs[1].check == IsNotEmpty && rs[2].check == MatchesEmail;
  }

  /** The login password constraints in plain words: any string of 1 to 128 characters. */
  lemma LoginPasswordAccepts(v: Option<Value>, isEmail: string -> bool)
    ensures FailedMessages(LoginPasswordRules, v, isEmail) == []
        <==> v.Some? && v.value.Str? && 1 <= Length(v.value.s) <= 128
  {
    var rs := LoginPasswordRules;
    assert rs[0].check == IsString && rs[1].check == IsNotEmpty && rs[2].check == MinLength(1);
    assert rs[3].check == MaxLength(128);
  }

  /** Every email and password that registration accepts, login accepts too. */
  lemma RegisterStricterThanLogin(email: Option<Value>, password: Option<Value>, isEmail: string -> bool)
    requires FailedMessages(RegisterEmailRules, email, isEmail) == []
    requires FailedMessages(RegisterPasswordRules, password, isEmail) == []
    ensures FailedMessages(LoginEmailRules, email, isEmail) == []
    ensures FailedMessages(LoginPasswordRules, password, isEmail) == []
  {
    RegisterEmailAccepts(email, isEmail);
    RegisterPasswordAccepts(password, isEmail);
    LoginEmailAccepts(email, isEmail);
    LoginPasswordAccepts(password, isEmail);
  }

  /** One step of the bottom-up walk: the last decorator of a prefix is
      reported first. */
  lemma FailedMessagesStep(rules: seq<Rule>, k: int, v: Option<Value>, isEmail: string -> bool)
    requires 0 < k <= |rules|
    ensures FailedMessages(rules[..k], v, isEmail)
         == (if Passes(rules[k - 1].check, v, isEmail) then [] else [rules[k - 1].message])
            + FailedMessages(rules[..k - 1], v, isEmail)
  {
    assert rules[..k][..k - 1] == rules[..k - 1];
  }

  /** The topmost decorator is applied last, so its message, if it fails,
      comes after all the others. */
  lemma {:induction false} FailedMessagesTopLast(r: Rule, rules: seq<Rule>, v: Option<Value>, isEmail: string -> bool)
    ensures FailedMessages([r] + rules, v, isEmail)
         == FailedMessages(rules, v, isEmail) + (if Passes(r.check, v, isEmail) then [] else [r.message])
    decreases |rules|
  {
    var all := [r] + rules;
    var n := |rules|;
    if n == 0 {
      assert all[..0] == [];
    } else {
      var last := rules[n - 1];
      var lastMs := if Passes(last.check, v, isEmail) then [] else [last.message];
      var topMs := if Passes(r.check, v, isEmail) then [] else [r.message];
      assert all[..n] == [r] + rules[..n - 1];
      assert all[n] == last;
      assert FailedMessages(all, v, isEmail) == lastMs + FailedMessages([r] + rules[..n - 1], v, isEmail);
      FailedMessagesTopLast(r, rules[..n - 1], v, isEmail);
      assert FailedMessages(rules, v, isEmail) == lastMs + FailedMessages(rules[..n - 1], v, isEmail);
      assert FailedMessages(all, v, isEmail) == lastMs + (FailedMessages(rules[..n - 1], v, isEmail) + topMs);
    }
  }

  /** Without a password, registration reports all six password messages,
      bottom-up. */
  lemma MissingPasswordMessages(isEmail: string -> bool)
    ensures FailedMessages(RegisterPasswordRules, None, isEmail)
         == ["Password cannot contain whitespace",
             "Password must contain at least one letter and one number",
             "Password must not exceed 128 characters",
             "Password must be at least 6 characters long",
             "Password is required",
             "Password must be a string"]
  {
    var rs := RegisterPasswordRules;
    assert rs[..6] == rs;
    MissingPasswordFirstThree(rs, isEmail);
    MissingPasswordLastThree(rs, isEmail);
  }

  lemma MissingPasswordLastThree(rs: seq<Rule>, isEmail: string -> bool)
    requires rs == RegisterPasswordRules
    ensures FailedMessages(rs[..6], None, isEmail)
         == [rs[5].message, rs[4].message, rs[3].message] + FailedMessages(rs[..3], None, isEmail)
  {
    FailedMessagesStep(rs, 4, None, isEmail);
    FailedMessagesStep(rs, 5, None, isEmail);
    FailedMessagesStep(rs, 6, None, isEmail);
  }

  lemma MissingPasswordFirstThree(rs: seq<Rule>, isEmail: string -> bool)
    requires rs == RegisterPasswordRules
    ensures FailedMessages(rs[..3], None, isEmail) == [rs[2].message, rs[1].message, rs[0].message]
  {
    assert rs[..0] == [];
    FailedMessagesStep(rs, 1, None, isEmail);
    FailedMessagesStep(rs, 2, None, isEmail);
    FailedMessagesStep(rs, 3, None, isEmail);
  }

  /** Without an email, registration reports all four email messages,
      bottom-up. */
  lemma MissingEmailMessages(isEmail: string -> bool)
    ensures FailedMessages(RegisterEmailRules, None, isEmail)
         == ["Email must be a valid email address format",
             "Email must not exceed 255 characters",
             "Email is required",
             "Please provide a valid email address"]
  {
    var rs := RegisterEmailRules;
    assert rs[..0] == [] && rs[..4] == rs;
    FailedMessagesStep(rs, 1, None, isEmail);
    FailedMessagesStep(rs, 2, None, isEmail);
    FailedMessagesStep(rs, 3, None, isEmail);
    FailedMessagesStep(rs, 4, None, isEmail);
  }

  /** "abc" passes at login and fails two registration constraints. */
  lemma ShortPasswordOnlyAtLogin(v: Option<Value>, isEmail: string -> bool)
    requires v == Some(Str("abc"))
    ensures FailedMessages(LoginPasswordRules, v, isEmail) == []
    ensures FailedMessages(RegisterPasswordRules, v, isEmail)
         == ["Password must contain at least one letter and one number",
             "Password must be at least 6 characters long"]
  {
    ShortPasswordChecks(v, isEmail);
    LoginPasswordAccepts(v, isEmail);
    var rs := RegisterPasswordRules;
    assert rs[..6] == rs;
    ShortPasswordFirstThree(rs, v, isEmail);
    FailedMessagesStep(rs, 4, v, isEmail);
    FailedMessagesStep(rs, 5, v, isEmail);
    FailedMessagesStep(rs, 6, v, isEmail);
  }

  lemma ShortPasswordChecks(v: Option<Value>, isEmail: string -> bool)
    requires v == Some(Str("abc"))
    ensures Length(v.value.s) == 3
    ensures Passes(IsString, v, isEmail) && Passes(IsNotEmpty, v, isEmail)
    ensures !Passes(MinLength(6), v, isEmail) && Passes(MaxLength(128), v, isEmail)
    ensures !Passes(IsStrongPassword, v, isEmail) && Passes(MatchesNoWhitespace, v, isEmail)
  {
    var s := v.value.s;
    assert CountSelectors(s) == 0;
    assert !HasDigit(s);
    assert NoWhitespace(s);
  }

  lemma ShortPasswordFirstThree(rs: seq<Rule>, v: Option<Value>, isEmail: string -> bool)
    requires rs == RegisterPasswordRules
    requires v == Some(Str("abc"))
    ensures FailedMessages(rs[..3], v, isEmail) == [rs[2].message]
  {
    ShortPasswordChecks(v, isEmail);
    assert rs[..0] == [];
    FailedMessagesStep(rs, 1, v, isEmail);
    FailedMessagesStep(rs, 2, v, isEmail);
    FailedMessagesStep(rs, 3, v, isEmail);
  }

  // ---------------------------------------------------------------------------
  // What each DTO accepts, from the body

  /** The facts about the two DTOs' declared properties. */
  lemma Declared(dto: Dto)
    requires dto == RegisterUserDto || dto == LoginUserDto
    ensures |dto.properties| == 2
    ensures dto.properties[0].name == "email" && dto.properties[0].normalized
    ensures dto.properties[1].name == "password" && !dto.properties[1].normalized
    ensures Lookup(dto.properties, "email") == Some(dto.properties[0])
    ensures Lookup(dto.properties, "password") == Some(dto.properties[1])
    ensures forall key :: Lookup(dto.properties, key).Some? <==> key == "email" || key == "password"
    ensures dto.properties[0].rules != [] && dto.properties[0].rules[0].check == IsEmail
    ensures dto.properties[1].rules != [] && dto.properties[1].rules[0].check == IsString
  {
    var ps := dto.properties;
    assert ps[1..][0] == ps[1] && ps[1..][1..] == [];
  }

  /** A property whose first decorator needs a string and that passes all
      its constraints holds a string. */
  lemma StringWhenPassing(rules: seq<Rule>, v: Option<Value>, isEmail: string -> bool)
    requires rules != [] && !rules[0].check.IsNotEmpty?
    requires FailedMessages(rules, v, isEmail) == []
    ensures v.Some? && v.value.Str?
  {
    assert Passes(rules[0].check, v, isEmail);
  }

  /** The value a property has in the instance built from the body. */
  function InstanceValue(dto: Dto, body: seq<Field>, key: string): (v: Option<Value>)
    ensures v == Get(Instantiate(dto, body), key)
  {
    GetInstantiate(dto, body, key);
    if Get(body, key).Some? then Some(Transformed(dto, key, Get(body, key).value)) else None
  }

  /** The email of the instance is the body's email converted to a string,
      then lower-cased and trimmed; the password is only converted. */
  lemma InstanceValues(dto: Dto, body: seq<Field>)
    requires dto == RegisterUserDto || dto == LoginUserDto
    ensures Get(body, "email").Some? && ImplicitString(Get(body, "email").value).Str?
            ==> (InstanceValue(dto, body, "email")
                 == Some(Str(NormalizeEmail(ImplicitString(Get(body, "email").value).s))))
    ensures Get(body, "email").Some? && !ImplicitString(Get(body, "email").value).Str?
            ==> InstanceValue(dto, body, "email") == Some(ImplicitString(Get(body, "email").value))
    ensures Get(body, "password").Some?
            ==> InstanceValue(dto, body, "password") == Some(ImplicitString(Get(body, "password").value))
    ensures Get(body, "email").None? ==> InstanceValue(dto, body, "email").None?
    ensures Get(body, "password").None? ==> InstanceValue(dto, body, "password").None?
  {
    Declared(dto);
  }

  /** Only the two declared fields are allowed. */
  predicate OnlyDeclaredFields(body: seq<Field>) {
    forall i :: 0 <= i < |body| ==> body[i].key == "email" || body[i].key == "password"
  }

  /** A body passes validation exactly when it has no other fields and each
      property passes its own constraints. */
  lemma BodyAccepted(dto: Dto, body: seq<Field>, isEmail: string -> bool)
    requires dto == RegisterUserDto || dto == LoginUserDto
    ensures Validate(dto, Instantiate(dto, body), isEmail) == []
        <==> OnlyDeclaredFields(body)
             && FailedMessages(dto.properties[0].rules, InstanceValue(dto, body, "email"), isEmail) == []
             && FailedMessages(dto.properties[1].rules, InstanceValue(dto, body, "password"), isEmail) == []
  {
    Declared(dto);
    WhitelistAccepts(dto, body);
    PropertiesAccept(dto, body, isEmail);
  }

  lemma WhitelistAccepts(dto: Dto, body: seq<Field>)
    requires dto == RegisterUserDto || dto == LoginUserDto
    ensures WhitelistErrors(dto, Instantiate(dto, body)) == [] <==> OnlyDeclaredFields(body)
  {
    Declared(dto);
    var inst := Instantiate(dto, body);
    assert forall i :: 0 <= i < |inst| ==> inst[i].key == body[i].key;
  }

  lemma PropertiesAccept(dto: Dto, body: seq<Field>, isEmail: string -> bool)
    requires dto == RegisterUserDto || dto == LoginUserDto
    ensures |dto.properties| == 2
    ensures PropertyErrors(dto.properties, Instantiate(dto, body), isEmail) == []
        <==> FailedMessages(dto.properties[0].rules, InstanceValue(dto, body, "email"), isEmail) == []
             && FailedMessages(dto.properties[1].rules, InstanceValue(dto, body, "password"), isEmail) == []
  {
    Declared(dto);
    var inst := Instantiate(dto, body);
    var ps := dto.properties;
    TwoPropertyErrors(ps, inst, isEmail);
    assert Get(inst, ps[0].name) == InstanceValue(dto, body, "email");
    assert Get(inst, ps[1].name) == InstanceValue(dto, body, "password");
  }

  /** With two declared properties, no entry means both pass. */
  lemma TwoPropertyErrors(ps: seq<Property>, inst: seq<Field>, isEmail: string -> bool)
    requires |ps| == 2
    ensures PropertyErrors(ps, inst, isEmail) == []
        <==> FailedMessages(ps[0].rules, Get(inst, ps[0].name), isEmail) == []
             && FailedMessages(ps[1].rules, Get(inst, ps[1].name), isEmail) == []
  {
    var g := (q: Property) => FailedMessages(q.rules, Get(inst, q.name), isEmail) == [];
    assert (forall i :: 0 <= i < |ps| ==> g(ps[i])) <==> g(ps[0]) && g(ps[1]) by {
      if g(ps[0]) && g(ps[1]) {
        forall i | 0 <= i < |ps| ensures g(ps[i]) { if i == 1 { assert ps[i] == ps[1]; } }
      }
    }
  }

  /** In an accepted instance, the email and the password are strings. */
  lemma AcceptedStrings(dto: Dto, body: seq<Field>, isEmail: string -> bool)
    requires dto == RegisterUserDto || dto == LoginUserDto
    requires Validate(dto, Instantiate(dto, body), isEmail) == []
    ensures InstanceValue(dto, body, "email").Some? && InstanceValue(dto, body, "email").value.Str?
    ensures InstanceValue(dto, body, "password").Some? && InstanceValue(dto, body, "password").value.Str?
  {
    BodyAccepted(dto, body, isEmail);
    Declared(dto);
    StringWhenPassing(dto.properties[0].rules, InstanceValue(dto, body, "email"), isEmail);
    StringWhenPassing(dto.properties[1].rules, InstanceValue(dto, body, "password"), isEmail);
  }

  /** A string email reaches the instance lower-cased and trimmed. */
  lemma InstanceEmail(dto: Dto, body: seq<Field>, raw: string)
    requires dto == RegisterUserDto || dto == LoginUserDto
    requires Get(body, "email") == Some(Str(raw))
    ensures InstanceValue(dto, body, "email") == Some(Str(NormalizeEmail(raw)))
  {
    Declared(dto);
    var p := dto.properties[0];
    assert Lookup(dto.properties, "email") == Some(p) && p.normalized;
    assert ImplicitString(Str(raw)) == Str(raw);
    assert Transformed(dto, "email", Str(raw)) == Str(NormalizeEmail(raw));
  }

  /** The login DTO builds the same email and password from a body as the
      registration DTO: both normalise the email the same way. */
  lemma SameInstanceValues(body: seq<Field>, key: string)
    requires key == "email" || key == "password"
    ensures InstanceValue(LoginUserDto, body, key) == InstanceValue(RegisterUserDto, body, key)
  {
    InstanceValues(LoginUserDto, body);
    InstanceValues(RegisterUserDto, body);
  }

  /** A body the registration DTO accepts, the login DTO accepts too. */
  lemma LoginAcceptsRegisteredInstance(body: seq<Field>, isEmail: string -> bool)
    requires Validate(RegisterUserDto, Instantiate(RegisterUserDto, body), isEmail) == []
    ensures Validate(LoginUserDto, Instantiate(LoginUserDto, body), isEmail) == []
  {
    var e := InstanceValue(RegisterUserDto, body, "email");
    var p := InstanceValue(RegisterUserDto, body, "password");
    BodyAccepted(RegisterUserDto, body, isEmail);
    assert FailedMessages(RegisterEmailRules, e, isEmail) == [];
    assert FailedMessages(RegisterPasswordRules, p, isEmail) == [];
    RegisterStricterThanLogin(e, p, isEmail);
    SameInstanceValues(body, "email");
    SameInstanceValues(body, "password");
    BodyAccepted(LoginUserDto, body, isEmail);
  }
}

=== FILE: exceptions.dfy ===
/**
 The exceptions the backend throws (the NestJS built-in HTTP exceptions,
 plain `Error`s from the driver or the hash library, anything else thrown)
 and `AllExceptionsFilter`, which turns any of them into the HTTP status and
 the `{message: string}` body the frontend reads.
 */
module Exceptions {
  import opened Basics
  import opened Text
  import opened Json

  /** What `HttpException.getResponse()` returns: a string, or an object of
      which the filter reads only the `message` property. */
  datatype ExceptionResponse =
    | TextResponse(text: string)
    | ObjectResponse(message: Option<Value>)

  datatype Exception =
      /** An `HttpException`: `getStatus()`, `getResponse()` and `exception.message`. */
    | HttpException(status: int, response: ExceptionResponse, message: string)
      /** An `Error` instance; `code` is the numeric `code` property the database driver sets. */
    | Error(message: string, code: Option<int>)
      /** A thrown value that is not an `Error`. */
    | Thrown(value: Value)

  const StatusOk := 200
  const StatusCreated := 201
  const StatusBadRequest := 400
  const StatusUnauthorized := 401
  const StatusConflict := 409
  const StatusTooManyRequests := 429
  const StatusInternalServerError := 500

  /** A built-in exception constructed from a non-empty message string: the
      response body's `message` and `exception.message` are both that string.
      Every exception the backend builds this way has a non-empty message. */
  function BuiltIn(status: int, message: string): Exception {
    HttpException(status, ObjectResponse(Some(Str(message))), message)
  }

  function ConflictException(message: string): Exception { BuiltIn(StatusConflict, message) }

  function UnauthorizedException(message: string): Exception { BuiltIn(StatusUnauthorized, message) }

  function InternalServerErrorException(message: string): Exception {
    BuiltIn(StatusInternalServerError, message)
  }

  function StringValues(messages: seq<string>): (vs: seq<Value>)
    ensures |vs| == |messages|
    ensures forall i :: 0 <= i < |vs| ==> vs[i] == Str(messages[i])
  {
    seq(|messages|, i requires 0 <= i < |messages| => Str(messages[i]))
  }

  /** `new BadRequestException(messages)` with an array: the response body's
      `message` is the array and `exception.message` the class's default text. */
  function BadRequestException(messages: seq<string>): Exception {
    HttpException(StatusBadRequest, ObjectResponse(Some(Arr(StringValues(messages)))), "Bad Request Exception")
  }

  // ---------------------------------------------------------------------------
  // AllExceptionsFilter

  datatype Severity = LogWarn | LogError

  /** The response status, the `message` of the JSON body, and the log level. */
  datatype Reply = Reply(status: int, message: string, severity: Severity)

  const FallbackMessage := "An error occurred"
  const EmptyValidationMessage := "Validation failed"

  /** The text of the body's `message`: strings as they are, anything else through `JSON.stringify`. */
  function BodyText(v: Value): (t: string)
    ensures v.Str? ==> t == v.s
    ensures !v.Str? ==> t == Stringify(v)
  {
    if v.Str? then v.s else Stringify(v)
  }

  /** The `message` property of an exception's object response, if it has one. */
  function BodyMessage(e: Exception): Option<Value> {
    if e.HttpException? && e.response.ObjectResponse? then e.response.message else None
  }

  /** The `message` the filter derives before building the body. */
  function DerivedMessage(e: Exception): Value {
    match e
    case HttpException(_, TextResponse(text), _) => Str(text)
    case HttpException(_, ObjectResponse(m), fallback) =>
      if m.Some? && m.value.Arr? then
        var joined := JoinValues(m.value.items, ", ");
        Str(if joined == "" then EmptyValidationMessage else joined)
      else if m.Some? && Truthy(m.value) then m.value
      else Str(fallback)
    case Error(message, _) => Str(message)
    case Thrown(_) => Str(FallbackMessage)
  }

  /** `AllExceptionsFilter.catch` without its logging I/O. */
  function Catch(e: Exception): (r: Reply)
    ensures r.status == (if e.HttpException? then e.status else StatusInternalServerError)
    ensures r.severity == LogError <==> r.status >= 500
    ensures e.Error? ==> r.message == e.message
    ensures e.Thrown? ==> r.message == FallbackMessage
    ensures e.HttpException? && e.response.TextResponse? ==> r.message == e.response.text
    ensures BodyMessage(e).Some? && BodyMessage(e).value.Arr? ==> r.message != ""
    ensures BodyMessage(e).Some? && BodyMessage(e).value.Arr? ==>
              var joined := JoinValues(BodyMessage(e).value.items, ", ");
              r.message == if joined == "" then EmptyValidationMessage else joined
    ensures (BodyMessage(e).Some? && !BodyMessage(e).value.Arr? && Truthy(BodyMessage(e).value))
              ==> r.message == BodyText(BodyMessage(e).value)
    ensures (e.HttpException? && e.response.ObjectResponse? && (BodyMessage(e).None? || !Truthy(BodyMessage(e).value)))
              ==> r.message == e.message
  {
    var status := if e.HttpException? then e.status else StatusInternalServerError;
    Reply(status, BodyText(DerivedMessage(e)), if status >= 500 then LogError else LogWarn)
  }

  /** `Array.prototype.join` on an array of strings is `Join` on the strings. */
  lemma JoinStringValues(messages: seq<string>, sep: string)
    ensures JoinValues(StringValues(messages), sep) == Join(messages, sep)
  {
    var texts := seq(|messages|, i requires 0 <= i < |messages| => ElementText(StringValues(messages)[i]));
    assert texts == messages;
  }

  /** A built-in exception with a non-empty message replies with its own
      status and that message. */
  lemma BuiltInReply(status: int, message: string)
    ensures Catch(BuiltIn(status, message)) == Reply(status, message, if status >= 500 then LogError else LogWarn)
  {
  }

  /** A validation failure replies 400 with every message joined by ", ",
      or "Validation failed" when that join is empty. */
  lemma BadRequestReply(messages: seq<string>)
    ensures Catch(BadRequestException(messages))
         == Reply(StatusBadRequest,
                  if Join(messages, ", ") == "" then EmptyValidationMessage else Join(messages, ", "),
                  LogWarn)
  {
    JoinStringValues(messages, ", ");
  }
}

=== FILE: json.dfy ===
/**
 JSON-like values as the backend sees them after body parsing, with the few
 JavaScript conversions the core applies to them: truthiness, the text an
 element contributes to `Array.prototype.join`, and `JSON.stringify`.
 */
module Json {
  import opened Basics
  import opened Text

  /** A parsed JSON value. Numbers are integers; an object's fields keep their order. */
  datatype Value =
    | Null
    | Bool(b: bool)
    | Num(n: int)
    | Str(s: string)
    | Arr(items: seq<Value>)
    | Obj(fields: seq<Field>)

  datatype Field = Field(key: string, value: Value)

  /** JavaScript's `ToBoolean` on a present value. */
  predicate Truthy(v: Value) {
    match v
    case Null => false
    case Bool(b) => b
    case Num(n) => n != 0
    case Str(s) => s != ""
    case Arr(_) => true
    case Obj(_) => true
  }

  /** JavaScript's `typeof` on a present value. */
  function TypeOf(v: Value): string {
    match v
    case Null => "object"
    case Bool(_) => "boolean"
    case Num(_) => "number"
    case Str(_) => "string"
    case Arr(_) => "object"
    case Obj(_) => "object"
  }

  /** `Object.keys`: the keys in field order. */
  function Keys(fields: seq<Field>): (ks: seq<string>)
    ensures |ks| == |fields|
    ensures forall i :: 0 <= i < |fields| ==> ks[i] == fields[i].key
  {
    seq(|fields|, i requires 0 <= i < |fields| => fields[i].key)
  }

  /** Property access `obj[key]`; `None` is `undefined`. */
  function Get(fields: seq<Field>, key: string): (r: Option<Value>)
    ensures r.None? <==> key !in Keys(fields)
    ensures r.Some? ==> exists i :: 0 <= i < |fields| && fields[i] == Field(key, r.value)
  {
    if fields == [] then None
    else if fields[0].key == key then Some(fields[0].value)
    else
      assert Keys(fields) == [fields[0].key] + Keys(fields[1..]);
      var r := Get(fields[1..], key);
      assert r.Some? ==> exists i :: 0 <= i < |fields[1..]| && fields[1..][i] == Field(key, r.value);
      r
  }

  // ---------------------------------------------------------------------------
  // Conversions to text

  function DigitChar(d: int): char
    requires 0 <= d < 10
  {
    ('0' as int + d) as char
  }

  function NaturalText(n: nat): string
    decreases n
  {
    if n < 10 then [DigitChar(n)] else NaturalText(n / 10) + [DigitChar(n % 10)]
  }

  /** `Number.prototype.toString` on an integer. */
  function DecimalText(n: int): string {
    if n < 0 then "-" + NaturalText(-n) else NaturalText(n)
  }

  /** The text an element contributes to `Array.prototype.join`: `null`
      becomes "", a nested array is joined with ",", an object prints as
      "[object Object]". */
  function ElementText(v: Value): string
    decreases v
  {
    match v
    case Null => ""
    case Bool(b) => if b then "true" else "false"
    case Num(n) => DecimalText(n)
    case Str(s) => s
    case Arr(items) => Join(seq(|items|, i requires 0 <= i < |items| => ElementText(items[i])), ",")
    case Obj(_) => "[object Object]"
  }

  /** `array.join(sep)` */
  function JoinValues(items: seq<Value>, sep: string): string {
    Join(seq(|items|, i requires 0 <= i < |items| => ElementText(items[i])), sep)
  }

  function HexDigit(d: int): char
    requires 0 <= d < 16
  {
    if d < 10 then DigitChar(d) else ('a' as int + d - 10) as char
  }

  /** The escape `JSON.stringify` writes for one code point of a string. */
  function EscapeChar(c: char): string {
    if c == '"' then "\\\""
    else if c == '\\' then "\\\\"
    else if c == '\U{8}' then "\\b"
    else if c == '\U{C}' then "\\f"
    else if c == '\n' then "\\n"
    else if c == '\r' then "\\r"
    else if c == '\t' then "\\t"
    else if c < ' ' then "\\u00" + [HexDigit(c as int / 16), HexDigit(c as int % 16)]
    else [c]
  }

  function Escape(s: string): string {
    if s == [] then "" else EscapeChar(s[0]) + Escape(s[1..])
  }

  function Quote(s: string): string {
    "\"" + Escape(s) + "\""
  }

  /** `JSON.stringify` of a value. */
  function Stringify(v: Value): string
    decreases v
  {
    match v
    case Null => "null"
    case Bool(b) => if b then "true" else "false"
    case Num(n) => DecimalText(n)
    case Str(s) => Quote(s)
    case Arr(items) =>
      "[" + Join(seq(|items|, i requires 0 <= i < |items| => Stringify(items[i])), ",") + "]"
    case Obj(fields) =>
      "{" + Join(seq(|fields|, i requires 0 <= i < |fields| =>
                       Quote(fields[i].key) + ":" + Stringify(fields[i].value)), ",") + "}"
  }
}

=== FILE: rate_limit.dfy ===
/**
 `RateLimitGuard`: an in-memory sliding-window limiter. Each guard instance
 keeps, per client key, the instants of the requests it admitted; a request
 first drops the instants that left the window, is refused with 429 when the
 remaining count has reached `maxRequests`, and otherwise records its own
 instant. The guard's mutable map is modelled as a state passed in and out.
 */
module RateLimit {
  import opened Basics
  import opened Json
  import opened Exceptions

  /** The constructor's parameters. */
  datatype Config = Config(maxRequests: int, windowMs: int)

  /** The constructor's defaults: 5 requests per 60000 ms. */
  const DefaultConfig := Config(5, 60000)

  /** The guard's `requests` map: client key to recorded instants, oldest first. */
  type State = map<string, seq<int>>

  /** `requests.get(key) || []` */
  function Entries(st: State, key: string): seq<int> {
    if key in st then st[key] else []
  }

  /** The instants still inside the window at `now` (those with `now - t < windowMs`), in their order. */
  function Recent(ts: seq<int>, now: int, windowMs: int): (r: seq<int>)
    ensures |r| <= |ts|
    ensures forall t {:trigger multiset(r)[t]} ::
              multiset(r)[t] == if now - t < windowMs then multiset(ts)[t] else 0
  {
    if ts == [] then []
    else
      assert ts == [ts[0]] + ts[1..];
      (if now - ts[0] < windowMs then [ts[0]] else []) + Recent(ts[1..], now, windowMs)
  }

  /** An instant is kept exactly when it lies less than `windowMs` before `now`. */
  lemma RecentMembership(ts: seq<int>, now: int, windowMs: int, t: int)
    ensures t in Recent(ts, now, windowMs) <==> t in ts && now - t < windowMs
  {
    assert t in Recent(ts, now, windowMs) <==> multiset(Recent(ts, now, windowMs))[t] > 0;
    assert t in ts <==> multiset(ts)[t] > 0;
  }

  lemma {:induction false} RecentAppend(a: seq<int>, b: seq<int>, now: int, windowMs: int)
    ensures Recent(a + b, now, windowMs) == Recent(a, now, windowMs) + Recent(b, now, windowMs)
    decreases |a|
  {
    if a == [] {
      assert a + b == b;
    } else {
      assert (a + b)[1..] == a[1..] + b;
      RecentAppend(a[1..], b, now, windowMs);
    }
  }

  /** Nothing is pruned while every instant is inside the window. */
  lemma {:induction false} RecentAllInside(ts: seq<int>, now: int, windowMs: int)
    requires forall i :: 0 <= i < |ts| ==> now - ts[i] < windowMs
    ensures Recent(ts, now, windowMs) == ts
    decreases |ts|
  {
    if ts != [] {
      RecentAllInside(ts[1..], now, windowMs);
      assert ts == [ts[0]] + ts[1..];
    }
  }

  /** Pruning at an earlier instant and again at a later one is pruning at the later one. */
  lemma {:induction false} RecentTwice(ts: seq<int>, earlier: int, later: int, windowMs: int)
    requires earlier <= later
    ensures Recent(Recent(ts, earlier, windowMs), later, windowMs) == Recent(ts, later, windowMs)
    decreases |ts|
  {
    if ts != [] {
      RecentTwice(ts[1..], earlier, later, windowMs);
      var head := if earlier - ts[0] < windowMs then [ts[0]] else [];
      RecentAppend(head, Recent(ts[1..], earlier, windowMs), later, windowMs);
    }
  }

  /** `cleanOldEntries(key, now)`: only an existing entry is rewritten, and only that one. */
  function CleanOldEntries(cfg: Config, st: State, key: string, now: int): (st': State)
    ensures st'.Keys == st.Keys
    ensures Entries(st', key) == Recent(Entries(st, key), now, cfg.windowMs)
    ensures forall k :: k in st && k != key ==> st'[k] == st[k]
  {
    if key in st then st[key := Recent(st[key], now, cfg.windowMs)] else st
  }

  /** The guard's state after a request, and whether the request passes. */
  datatype Verdict = Verdict(state: State, admitted: bool)

  /** The decision of `canActivate` for the client `key` at instant `now`. */
  function Admit(cfg: Config, st: State, key: string, now: int): (v: Verdict)
    ensures v.admitted <==> |Recent(Entries(st, key), now, cfg.windowMs)| < cfg.maxRequests
    ensures v.admitted ==> Entries(v.state, key) == Recent(Entries(st, key), now, cfg.windowMs) + [now]
    ensures !v.admitted ==> Entries(v.state, key) == Recent(Entries(st, key), now, cfg.windowMs)
    ensures v.state.Keys == if v.admitted then st.Keys + {key} else st.Keys
    ensures forall k :: k in st && k != key ==> v.state[k] == st[k]
  {
    var cleaned := CleanOldEntries(cfg, st, key, now);
    var current := Entries(cleaned, key);
    if |current| >= cfg.maxRequests then Verdict(cleaned, false)
    else Verdict(cleaned[key := current + [now]], true)
  }

  /** A refused request never grows its client's sequence. */
  lemma RejectionNeverGrows(cfg: Config, st: State, key: string, now: int)
    ensures !Admit(cfg, st, key, now).admitted ==>
              |Entries(Admit(cfg, st, key, now).state, key)| <= |Entries(st, key)|
  {
  }

  /** No client ever holds more than `maxRequests` stored instants. */
  ghost predicate Bounded(cfg: Config, st: State) {
    forall k :: k in st ==> |st[k]| <= cfg.maxRequests
  }

  lemma AdmitPreservesBound(cfg: Config, st: State, key: string, now: int)
    requires Bounded(cfg, st)
    ensures Bounded(cfg, Admit(cfg, st, key, now).state)
  {
    var v := Admit(cfg, st, key, now);
    forall k | k in v.state
      ensures |v.state[k]| <= cfg.maxRequests
    {
      if k == key {
        assert Entries(v.state, key) == v.state[k];
      }
    }
  }

  // ---------------------------------------------------------------------------
  // The guard as NestJS runs it

  const TooManyRequestsMessage := "Too many requests. Please try again later."

  /** The `HttpException` thrown on refusal: body `{message, statusCode: 429}`, status 429. */
  const TooManyRequests: Exception :=
    HttpException(StatusTooManyRequests, ObjectResponse(Some(Str(TooManyRequestsMessage))), TooManyRequestsMessage)

  /** The parts of the request `getClientIp` reads; `None` or "" is falsy. */
  datatype ClientAddress = ClientAddress(ip: Option<string>, connectionAddress: Option<string>, socketAddress: Option<string>)

  predicate Present(a: Option<string>) { a.Some? && a.value != "" }

  function Candidates(c: ClientAddress): seq<Option<string>> {
    [c.ip, c.connectionAddress, c.socketAddress]
  }

  /** `getClientIp`: the first truthy address of `ip`, `connection.remoteAddress`,
      `socket.remoteAddress`, else "unknown". */
  function ClientKey(c: ClientAddress): (key: string)
    ensures forall i :: 0 <= i < 3 && Present(Candidates(c)[i])
                        && (forall j :: 0 <= j < i ==> !Present(Candidates(c)[j]))
                        ==> key == Candidates(c)[i].value
    ensures (forall i :: 0 <= i < 3 ==> !Present(Candidates(c)[i])) ==> key == "unknown"
  {
    var cs := Candidates(c);
    assert cs[0] == c.ip && cs[1] == c.connectionAddress && cs[2] == c.socketAddress;
    if Present(c.ip) then c.ip.value
    else if Present(c.connectionAddress) then c.connectionAddress.value
    else if Present(c.socketAddress) then c.socketAddress.value
    else "unknown"
  }

  /** The guard's state after `canActivate`, and the exception it threw, if any. */
  datatype GuardOutcome = GuardOutcome(state: State, error: Option<Exception>)

  /** `canActivate` for a request from `client` at `now` (`Date.now()`). */
  function CanActivate(cfg: Config, st: State, client: ClientAddress, now: int): (g: GuardOutcome)
    ensures g.error.None? <==> Admit(cfg, st, ClientKey(client), now).admitted
    ensures g.error.Some? ==> g.error.value == TooManyRequests
    ensures g.state == Admit(cfg, st, ClientKey(client), now).state
  {
    var v := Admit(cfg, st, ClientKey(client), now);
    GuardOutcome(v.state, if v.admitted then None else Some(TooManyRequests))
  }

  // ---------------------------------------------------------------------------
  // Runs of requests from one client

  /** The decisions of successive requests from `key` at the instants `times`. */
  function Run(cfg: Config, st: State, key: string, times: seq<int>): seq<bool>
    decreases |times|
  {
    if times == [] then []
    else
      var v := Admit(cfg, st, key, times[0]);
      [v.admitted] + Run(cfg, v.state, key, times[1..])
  }

  /** The sliding-window policy stated over the full history of admitted
      instants, never pruned: a request at `t` is admitted iff fewer than
      `maxRequests` admitted requests lie in the window ending at `t`. */
  function Policy(cfg: Config, admitted: seq<int>, times: seq<int>): seq<bool>
    decreases |times|
  {
    if times == [] then []
    else
      var ok := |Recent(admitted, times[0], cfg.windowMs)| < cfg.maxRequests;
      [ok] + Policy(cfg, if ok then admitted + [times[0]] else admitted, times[1..])
  }

  ghost predicate NonDecreasing(times: seq<int>) {
    forall i, j :: 0 <= i < j < |times| ==> times[i] <= times[j]
  }

  /** The stored instants of `key` agree with the full history on every window
      ending at or after `since`. */
  ghost predicate Tracks(cfg: Config, st: State, key: string, history: seq<int>, since: int) {
    forall t {:trigger Recent(history, t, cfg.windowMs)} :: since <= t ==>
      Recent(Entries(st, key), t, cfg.windowMs) == Recent(history, t, cfg.windowMs)
  }

  /** One request keeps the stored instants tracking the history. */
  lemma AdmitTracks(cfg: Config, st: State, key: string, history: seq<int>, since: int, now: int)
    requires since <= now
    requires Tracks(cfg, st, key, history, since)
    ensures Admit(cfg, st, key, now).admitted <==> |Recent(history, now, cfg.windowMs)| < cfg.maxRequests
    ensures Tracks(cfg, Admit(cfg, st, key, now).state, key,
                   if Admit(cfg, st, key, now).admitted then history + [now] else history, now)
  {
    var v := Admit(cfg, st, key, now);
    var w := cfg.windowMs;
    var pruned := Recent(Entries(st, key), now, w);
    assert pruned == Recent(history, now, w);
    var history' := if v.admitted then history + [now] else history;
    forall t | now <= t
      ensures Recent(Entries(v.state, key), t, w) == Recent(history', t, w)
    {
      RecentTwice(Entries(st, key), now, t, w);
      assert Recent(pruned, t, w) == Recent(history, t, w);
      if v.admitted {
        RecentAppend(pruned, [now], t, w);
        RecentAppend(history, [now], t, w);
      }
    }
  }

  /** For a client whose requests arrive in time order, the pruned map decides
      exactly as the sliding-window policy over the unpruned history. */
  lemma {:induction false} RunFollowsPolicy(cfg: Config, st: State, key: string, history: seq<int>,
                                            since: int, times: seq<int>)
    requires NonDecreasing(times)
    requires forall i :: 0 <= i < |times| ==> since <= times[i]
    requires Tracks(cfg, st, key, history, since)
    ensures Run(cfg, st, key, times) == Policy(cfg, history, times)
    decreases |times|
  {
    if times != [] {
      AdmitTracks(cfg, st, key, history, since, times[0]);
      var v := Admit(cfg, st, key, times[0]);
      var history' := if v.admitted then history + [times[0]] else history;
      RunFollowsPolicy(cfg, v.state, key, history', times[0], times[1..]);
    }
  }

  /** From a fresh guard, time-ordered requests are decided by the sliding-window policy. */
  lemma FreshRunFollowsPolicy(cfg: Config, key: string, times: seq<int>)
    requires NonDecreasing(times)
    ensures Run(cfg, map[], key, times) == Policy(cfg, [], times)
  {
    if times != [] {
      RunFollowsPolicy(cfg, map[], key, [], times[0], times);
    }
  }

  /** An instant that has left the window shortens the pruned sequence. */
  lemma RecentDropsExpired(ts: seq<int>, now: int, windowMs: int)
    requires ts != [] && now - ts[0] >= windowMs
    ensures |Recent(ts, now, windowMs)| < |ts|
  {
  }

  /** A burst under any configuration with `maxRequests = n >= 1`: when the
      first n + 1 requests fall within one window, the first n pass, the next
      is refused, and a request once the first has aged out passes again. */
  lemma {:induction false} BurstPolicy(cfg: Config, n: nat, times: seq<int>, i: nat)
    requires cfg.maxRequests == n && 1 <= n && i <= n
    requires |times| == n + 2 && NonDecreasing(times)
    requires times[n] - times[0] < cfg.windowMs
    requires times[n + 1] - times[0] >= cfg.windowMs
    ensures Policy(cfg, times[..i], times[i..]) == seq(n - i, _ => true) + [false, true]
    decreases n - i
  {
    var w := cfg.windowMs;
    RecentAllInside(times[..i], times[i], w);
    assert times[i..][0] == times[i] && times[i..][1..] == times[i + 1..];
    if i < n {
      assert |Recent(times[..i], times[i], w)| < n;
      assert times[..i] + [times[i]] == times[..i + 1];
      BurstPolicy(cfg, n, times, i + 1);
      assert Policy(cfg, times[..i], times[i..]) == [true] + Policy(cfg, times[..i + 1], times[i + 1..]);
      assert seq(n - i, _ => true) + [false, true] == [true] + (seq(n - i - 1, _ => true) + [false, true]);
    } else {
      var h := times[..n];
      var last := times[n + 1..];
      assert last == [times[n + 1]] && last[1..] == [];
      assert times[0] == h[0];
      RecentDropsExpired(h, times[n + 1], w);
      assert Policy(cfg, h, last) == [true];
      assert Policy(cfg, h, times[n..]) == [false] + Policy(cfg, h, last);
    }
  }

  /** A fresh guard admits the first `maxRequests` requests of a burst inside
      one window, refuses the next, and admits again after the first expires. */
  lemma BurstThenRecovery(cfg: Config, n: nat, key: string, times: seq<int>)
    requires cfg.maxRequests == n && 1 <= n
    requires |times| == n + 2 && NonDecreasing(times)
    requires times[n] - times[0] < cfg.windowMs
    requires times[n + 1] - times[0] >= cfg.windowMs
    ensures Run(cfg, map[], key, times) == seq(n, _ => true) + [false, true]
  {
    FreshRunFollowsPolicy(cfg, key, times);
    BurstPolicy(cfg, n, times, 0);
    assert times[..0] == [] && times[0..] == times;
  }

  /** With the defaults, requests at 0..4 ms pass, one at 5 ms is refused, and
      one at 60000 ms passes again because 60000 - 0 is not below 60000. */
  lemma DefaultScenario(key: string, times: seq<int>)
    requires times == [0, 1, 2, 3, 4, 5, 60000]
    ensures Run(DefaultConfig, map[], key, times) == [true, true, true, true, true, false, true]
  {
    BurstThenRecovery(DefaultConfig, 5, key, times);
    assert seq(5, _ => true) + [false, true] == [true, true, true, true, true, false, true];
  }
}

=== FILE: text.dfy ===
/**
 Character classes and string operations of the JavaScript runtime that the
 backend relies on: the `\s` class, `String.prototype.trim`, `toLowerCase`
 (on ASCII), `split` on one character and `Array.prototype.join`.
 */
module Text {

  /** `\s` of an ECMAScript regular expression: the WhiteSpace and LineTerminator
      code points. `String.prototype.trim` strips exactly the same set. */
  predicate IsWhitespace(c: char) {
    || c == '\t' || c == '\n' || c == '\U{B}' || c == '\U{C}' || c == '\r' || c == ' '
    || c == '\U{A0}' || c == '\U{1680}' || ('\U{2000}' <= c <= '\U{200A}')
    || c == '\U{2028}' || c == '\U{2029}' || c == '\U{202F}' || c == '\U{205F}'
    || c == '\U{3000}' || c == '\U{FEFF}'
  }

  /** The code points that `.` does not match in a regular expression without the `s` flag. */
  predicate IsLineTerminator(c: char) {
    c == '\n' || c == '\r' || c == '\U{2028}' || c == '\U{2029}'
  }

  predicate IsAsciiUpper(c: char) { 'A' <= c <= 'Z' }

  /** `[A-Za-z]` */
  predicate IsAsciiLetter(c: char) { 'A' <= c <= 'Z' || 'a' <= c <= 'z' }

  /** `\d` */
  predicate IsDigit(c: char) { '0' <= c <= '9' }

  predicate NoWhitespace(s: string) {
    forall i :: 0 <= i < |s| ==> !IsWhitespace(s[i])
  }

  predicate AllWhitespace(s: string) {
    forall i :: 0 <= i < |s| ==> IsWhitespace(s[i])
  }

  predicate NoLineTerminator(s: string) {
    forall i :: 0 <= i < |s| ==> !IsLineTerminator(s[i])
  }

  predicate NoAsciiUpper(s: string) {
    forall i :: 0 <= i < |s| ==> !IsAsciiUpper(s[i])
  }

  /** Neither the first nor the last character is whitespace. */
  predicate Unpadded(s: string) {
    s == [] || (!IsWhitespace(s[0]) && !IsWhitespace(s[|s| - 1]))
  }

  // ---------------------------------------------------------------------------
  // Case folding

  /** Lower-cases one code point: A-Z become a-z, every other code point is kept. */
  function LowerChar(c: char): (d: char)
    ensures !IsAsciiUpper(d)
    ensures !IsAsciiUpper(c) ==> d == c
    ensures IsAsciiUpper(c) ==> 'a' <= d <= 'z' && d as int - 'a' as int == c as int - 'A' as int
  {
    if IsAsciiUpper(c) then (c as int - 'A' as int + 'a' as int) as char else c
  }

  /** `String.prototype.toLowerCase`, restricted to ASCII letters. */
  function ToLower(s: string): (r: string)
    ensures |r| == |s|
    ensures forall i :: 0 <= i < |s| ==> r[i] == LowerChar(s[i])
  {
    if s == [] then [] else [LowerChar(s[0])] + ToLower(s[1..])
  }

  /** Lower-casing a string without upper-case letters changes nothing. */
  lemma ToLowerOfLower(s: string)
    requires NoAsciiUpper(s)
    ensures ToLower(s) == s
  {
    assert forall i :: 0 <= i < |s| ==> ToLower(s)[i] == s[i];
  }

  lemma {:induction false} ToLowerAppend(a: string, b: string)
    ensures ToLower(a + b) == ToLower(a) + ToLower(b)
    decreases |a|
  {
    if a == [] {
      assert a + b == b;
    } else {
      assert (a + b)[1..] == a[1..] + b;
      ToLowerAppend(a[1..], b);
    }
  }

  // ---------------------------------------------------------------------------
  // Trimming

  /** Drops the leading whitespace. */
  function TrimStart(s: string): (r: string)
    ensures |r| <= |s| && r == s[|s| - |r|..]
    ensures AllWhitespace(s[..|s| - |r|])
    ensures r == [] || !IsWhitespace(r[0])
    decreases |s|
  {
    if |s| > 0 && IsWhitespace(s[0]) then
      var r := TrimStart(s[1..]);
      assert s[..|s| - |r|] == [s[0]] + s[1..][..|s| - 1 - |r|];
      r
    else s
  }

  /** Drops the trailing whitespace. */
  function TrimEnd(s: string): (r: string)
    ensures |r| <= |s| && r == s[..|r|]
    ensures AllWhitespace(s[|r|..])
    ensures r == [] || !IsWhitespace(r[|r| - 1])
    decreases |s|
  {
    if |s| > 0 && IsWhitespace(s[|s| - 1]) then
      var r := TrimEnd(s[..|s| - 1]);
      assert s[|r|..] == s[..|s| - 1][|r|..] + [s[|s| - 1]];
      r
    else s
  }

  /** `r` sits at offset `i` of `s`, with only whitespace before and after it. */
  predicate PaddedInfix(r: string, s: string, i: int) {
    && 0 <= i <= |s| - |r| && r == s[i..i + |r|]
    && AllWhitespace(s[..i]) && AllWhitespace(s[i + |r|..])
  }

  /** `String.prototype.trim`: the infix of `s` left after removing a
      whitespace-only prefix and suffix, with no whitespace at either end;
      the infix starts where `TrimStart` cuts. */
  function Trim(s: string): (r: string)
    ensures |r| <= |s|
    ensures PaddedInfix(r, s, |s| - |TrimStart(s)|)
    ensures Unpadded(r)
  {
    var t := TrimStart(s);
    var r := TrimEnd(t);
    TrimSlices(s, t, r);
    TrimEnds(t, r);
    r
  }

  /** Neither end of `trim`'s result is whitespace. */
  lemma TrimEnds(t: string, r: string)
    requires t == [] || !IsWhitespace(t[0])
    requires |r| <= |t| && r == t[..|r|] && (r == [] || !IsWhitespace(r[|r| - 1]))
    ensures Unpadded(r)
  {
    if r != [] {
      assert r[0] == t[0];
    }
  }

  /** Where the two halves of `trim` cut `s`. */
  lemma TrimSlices(s: string, t: string, r: string)
    requires |t| <= |s| && t == s[|s| - |t|..] && AllWhitespace(s[..|s| - |t|])
    requires |r| <= |t| && r == t[..|r|] && AllWhitespace(t[|r|..])
    ensures PaddedInfix(r, s, |s| - |t|)
  {
    SliceOfSuffix(s, |s| - |t|, |r|);
  }

  lemma SliceOfSuffix(s: string, i: int, k: int)
    requires 0 <= i <= |s| && 0 <= k <= |s| - i
    ensures s[i..][..k] == s[i..i + k] && s[i..][k..] == s[i + k..]
  {
  }

  /** Trimming keeps a string free of upper-case letters. */
  lemma TrimNoAsciiUpper(s: string)
    requires NoAsciiUpper(s)
    ensures NoAsciiUpper(Trim(s))
  {
    var t := TrimStart(s);
    NoAsciiUpperSlice(s, |s| - |t|, |s|);
    NoAsciiUpperSlice(t, 0, |TrimEnd(t)|);
  }

  lemma NoAsciiUpperSlice(s: string, i: int, j: int)
    requires NoAsciiUpper(s) && 0 <= i <= j <= |s|
    ensures NoAsciiUpper(s[i..j])
  {
    assert forall k :: 0 <= k < j - i ==> s[i..j][k] == s[i + k];
  }

  /** A string with no whitespace at either end is its own trim. */
  lemma TrimOfUnpadded(s: string)
    requires Unpadded(s)
    ensures Trim(s) == s
  {
  }

  /** Trimming twice is trimming once. */
  lemma TrimIdempotent(s: string)
    ensures Trim(Trim(s)) == Trim(s)
  {
    TrimOfUnpadded(Trim(s));
  }

  lemma {:induction false} TrimStartPadding(pre: string, s: string)
    requires AllWhitespace(pre)
    ensures TrimStart(pre + s) == TrimStart(s)
    decreases |pre|
  {
    if pre == [] {
      assert pre + s == s;
    } else {
      assert (pre + s)[1..] == pre[1..] + s;
      TrimStartPadding(pre[1..], s);
    }
  }

  lemma {:induction false} TrimEndPadding(s: string, post: string)
    requires AllWhitespace(post)
    ensures TrimEnd(s + post) == TrimEnd(s)
    decreases |post|
  {
    if post == [] {
      assert s + post == s;
    } else {
      var p := post[..|post| - 1];
      assert (s + post)[..|s + post| - 1] == s + p;
      TrimEndPadding(s, p);
    }
  }

  lemma {:induction false} TrimStartAppend(s: string, t: string)
    requires !AllWhitespace(s)
    ensures TrimStart(s + t) == TrimStart(s) + t
    decreases |s|
  {
    if IsWhitespace(s[0]) {
      assert (s + t)[1..] == s[1..] + t;
      TrimStartAppend(s[1..], t);
    }
  }

  /** Whitespace around a string never survives `trim`. */
  lemma TrimPadding(pre: string, s: string, post: string)
    requires AllWhitespace(pre) && AllWhitespace(post)
    ensures Trim(pre + s + post) == Trim(s)
  {
    assert pre + s + post == pre + (s + post);
    TrimStartPadding(pre, s + post);
    if AllWhitespace(s) {
      assert AllWhitespace(s + post);
    } else {
      TrimStartAppend(s, post);
      TrimEndPadding(TrimStart(s), post);
    }
  }

  // ---------------------------------------------------------------------------
  // Searching, splitting and joining

  /** The position of the first `c` in `s`. */
  function IndexOf(s: string, c: char): (i: nat)
    requires c in s
    ensures i < |s| && s[i] == c && c !in s[..i]
  {
    if s[0] == c then 0 else
      var j := IndexOf(s[1..], c);
      assert s[..j + 1] == [s[0]] + s[1..][..j];
      1 + j
  }

  /** Membership in a suffix, position by position. */
  lemma NotInSuffix(s: string, i: int, c: char)
    requires 0 <= i <= |s|
    ensures c !in s[i..] <==> forall k :: i <= k < |s| ==> s[k] != c
  {
    if c in s[i..] {
      var j :| 0 <= j < |s[i..]| && s[i..][j] == c;
      assert s[i + j] == c;
    }
  }

  /** Membership in a prefix, position by position. */
  lemma NotInPrefix(s: string, i: int, c: char)
    requires 0 <= i <= |s|
    ensures c !in s[..i] <==> forall k :: 0 <= k < i ==> s[k] != c
  {
    if c in s[..i] {
      var j :| 0 <= j < i && s[..i][j] == c;
      assert s[j] == c;
    }
  }

  /** `Array.prototype.join`: the parts with `sep` between consecutive ones. */
  function Join(parts: seq<string>, sep: string): string
  {
    if |parts| == 0 then ""
    else if |parts| == 1 then parts[0]
    else parts[0] + sep + Join(parts[1..], sep)
  }

  /** `String.prototype.split` on a one-character separator: the maximal
      separator-free pieces, which joined again give back `s`. */
  function Split(s: string, sep: char): (r: seq<string>)
    ensures |r| >= 1
    ensures forall k :: 0 <= k < |r| ==> sep !in r[k]
    ensures Join(r, [sep]) == s
    decreases |s|
  {
    if sep !in s then [s]
    else
      var i := IndexOf(s, sep);
      var rest := Split(s[i + 1..], sep);
      assert s == s[..i] + [sep] + s[i + 1..];
      [s[..i]] + rest
  }

  /** Splitting a join of separator-free pieces gives the pieces back. */
  lemma {:induction false} SplitJoin(parts: seq<string>, sep: char)
    requires |parts| >= 1
    requires forall k :: 0 <= k < |parts| ==> sep !in parts[k]
    ensures Split(Join(parts, [sep]), sep) == parts
    decreases |parts|
  {
    if |parts| > 1 {
      var head := parts[0];
      var tail := Join(parts[1..], [sep]);
      var s := Join(parts, [sep]);
      assert s == head + [sep] + tail;
      AroundSeparator(head, sep, tail);
      IndexOfFirst(s, sep, |head|);
      assert Split(s, sep) == [head] + Split(tail, sep);
      SplitJoin(parts[1..], sep);
      assert parts == [head] + parts[1..];
    }
  }

  /** The pieces of `a + [c] + t` around position `|a|`. */
  lemma AroundSeparator(a: string, c: char, t: string)
    ensures (a + [c] + t)[..|a|] == a && (a + [c] + t)[|a|] == c && (a + [c] + t)[|a| + 1..] == t
  {
  }

  /** A position holding `c` with no `c` before it is the first. */
  lemma IndexOfFirst(s: string, c: char, i: int)
    requires 0 <= i < |s| && s[i] == c && c !in s[..i]
    ensures c in s && IndexOf(s, c) == i
  {
    var j := IndexOf(s, c);
  }
}

=== FILE: trim_pipe.dfy ===
/**
 `TrimPipe`: trims every string-valued property of a request body, descending
 into nested objects but not into arrays. The backend defines the pipe but
 does not install it on any route; it is modelled on its own.
 */
module TrimPipe {
  import opened Basics
  import opened Text
  import opened Json

  /** `isObj`: `typeof` says "object" and the value is neither `null` nor an
      array, which leaves exactly the plain objects. */
  function IsObj(v: Value): (b: bool)
    ensures b <==> v.Obj?
  {
    TypeOf(v) == "object" && !v.Null? && !v.Arr?
  }

  /** What one property becomes: a nested object is trimmed recursively, a
      string is trimmed, and anything else (arrays included) is kept. */
  function TrimMember(v: Value): (w: Value)
    ensures v.Str? ==> w == Str(Trim(v.s))
    ensures !IsObj(v) && !v.Str? ==> w == v
    ensures IsObj(v) <==> IsObj(w)
    ensures IsObj(v) ==> Keys(w.fields) == Keys(v.fields)
    ensures v.Obj? ==> w == Obj(TrimFields(v.fields))
    decreases v
  {
    match v
    case Obj(fields) => Obj(TrimFields(fields))
    case Str(s) => Str(Trim(s))
    case _ => v
  }

  /** `trim`: every property of the object in turn, keeping its key. */
  function TrimFields(fields: seq<Field>): (r: seq<Field>)
    ensures |r| == |fields|
    ensures forall i :: 0 <= i < |fields| ==> r[i] == Field(fields[i].key, TrimMember(fields[i].value))
    ensures Keys(r) == Keys(fields)
    decreases fields
  {
    if fields == [] then []
    else [Field(fields[0].key, TrimMember(fields[0].value))] + TrimFields(fields[1..])
  }

  /** `transform`: only an object is processed; a top-level string, number,
      `null` or array comes back unchanged. */
  function Transform(v: Value): (w: Value)
    ensures !IsObj(v) ==> w == v
    ensures IsObj(v) ==> IsObj(w) && Keys(w.fields) == Keys(v.fields)
    ensures IsObj(v) ==> w == TrimMember(v)
  {
    if IsObj(v) then TrimMember(v) else v
  }

  // ---------------------------------------------------------------------------
  // Properties

  /** Reading a property of the trimmed object gives the trimmed property. */
  lemma {:induction false} GetTrimmed(fields: seq<Field>, key: string)
    ensures Get(TrimFields(fields), key)
         == (if Get(fields, key).Some? then Some(TrimMember(Get(fields, key).value)) else None)
    decreases fields
  {
    if fields != [] {
      var r := TrimFields(fields);
      assert r[1..] == TrimFields(fields[1..]);
      GetTrimmed(fields[1..], key);
    }
  }

  /** The reference for the pipe's output: every string reachable through
      objects alone has no whitespace at either end. Strings inside arrays
      are not constrained. */
  predicate TrimmedValue(v: Value)
    decreases v
  {
    match v
    case Str(s) => Unpadded(s)
    case Obj(fields) => TrimmedFields(fields)
    case _ => true
  }

  predicate TrimmedFields(fields: seq<Field>)
    decreases fields
  {
    forall i :: 0 <= i < |fields| ==> TrimmedValue(fields[i].value)
  }

  /** Whatever goes in, what comes out is trimmed. */
  lemma {:induction false} TrimMemberTrimmed(v: Value)
    ensures TrimmedValue(TrimMember(v))
    decreases v
  {
    match v
    case Obj(fields) => TrimFieldsTrimmed(fields);
    case Str(s) =>
    case _ =>
  }

  lemma {:induction false} TrimFieldsTrimmed(fields: seq<Field>)
    ensures TrimmedFields(TrimFields(fields))
    decreases fields
  {
    var r := TrimFields(fields);
    forall i | 0 <= i < |fields| ensures TrimmedValue(r[i].value) {
      TrimMemberTrimmed(fields[i].value);
    }
  }

  /** A tree that is already trimmed is left as it is. */
  lemma {:induction false} TrimMemberKeepsTrimmed(v: Value)
    requires TrimmedValue(v)
    ensures TrimMember(v) == v
    decreases v
  {
    match v
    case Obj(fields) => TrimFieldsKeepsTrimmed(fields);
    case Str(s) => TrimOfUnpadded(s);
    case _ =>
  }

  lemma {:induction false} TrimFieldsKeepsTrimmed(fields: seq<Field>)
    requires TrimmedFields(fields)
    ensures TrimFields(fields) == fields
    decreases fields
  {
    var r := TrimFields(fields);
    forall i | 0 <= i < |fields| ensures r[i] == fields[i] {
      TrimMemberKeepsTrimmed(fields[i].value);
    }
  }

  /** The values the pipe leaves unchanged are exactly the trimmed ones. */
  lemma TrimmedIsFixpoint(v: Value)
    ensures TrimMember(v) == v <==> TrimmedValue(v)
  {
    TrimMemberTrimmed(v);
    if TrimmedValue(v) {
      TrimMemberKeepsTrimmed(v);
    }
  }

  /** Applying the pipe twice is applying it once. */
  lemma TransformIdempotent(v: Value)
    ensures Transform(Transform(v)) == Transform(v)
  {
    if IsObj(v) {
      TrimMemberTrimmed(v);
      TrimMemberKeepsTrimmed(TrimMember(v));
    }
  }

  /** A string inside an array is never trimmed, even inside an object. */
  lemma ArrayStringsUntouched(key: string, s: string)
    ensures Transform(Obj([Field(key, Arr([Str(s)]))])) == Obj([Field(key, Arr([Str(s)]))])
  {
    var fields := [Field(key, Arr([Str(s)]))];
    assert TrimFields(fields)[0] == fields[0];
  }
}

=== FILE: user_controller.dfy ===
/**
 `UserController` as a request runs through it: the route's own
 `RateLimitGuard`, then the global `ValidationPipe`, then the service, with
 every exception turned into a reply by `AllExceptionsFilter`.
 */
module UserController {
  import opened Basics
  import opened Text
  import opened Json
  import opened Exceptions
  import opened Validators
  import opened Dtos
  import opened Bootstrap
  import opened UserService
  import RateLimit

  /** `new RateLimitGuard(5, 60000)` on `POST /user/register`. */
  const RegisterLimit := RateLimit.Config(5, 60000)

  /** `new RateLimitGuard(10, 60000)` on `POST /user/login`. */
  const LoginLimit := RateLimit.Config(10, 60000)

  /** The server's state: one guard instance per route, and the users collection. */
  datatype App = App(registerGuard: RateLimit.State, loginGuard: RateLimit.State, users: Store)

  /** A request with a JSON object body and the two clock readings it meets:
      `now` is the guard's `Date.now()`, and `savedAt` is the `new Date()` the
      service puts in `createdAt`, both in milliseconds since the epoch. They
      are read at different moments, so they are separate inputs. */
  datatype Request = Request(client: RateLimit.ClientAddress, body: seq<Field>, now: int, savedAt: int)

  datatype Body =
    | Success(response: AuthResponse)
      /** The filter's `{message: string}`. */
    | Failure(message: string)

  datatype HttpResponse = HttpResponse(status: int, body: Body)

  datatype Step = Step(app: App, response: HttpResponse)

  function Filtered(e: Exception): (r: HttpResponse)
    ensures r.status == Catch(e).status && r.body == Failure(Catch(e).message)
  {
    var reply := Catch(e);
    HttpResponse(reply.status, Failure(reply.message))
  }

  /** What `register` answers once the guard has admitted the request and
      the pipe has produced `piped`: the pipe's exception, or the service's
      outcome. */
  function RegisterAdmitted(app: App, piped: Result<Credentials, Exception>, savedAt: int, env: RegisterEnv): (s: Step)
    ensures s.app.registerGuard == app.registerGuard && s.app.loginGuard == app.loginGuard
    ensures piped.Err? ==> s == Step(app, Filtered(piped.error))
    ensures piped.Ok? ==> s.app.users == Register(app.users, piped.value.email, piped.value.password, savedAt, env).store
    ensures piped.Ok? ==>
              s.response == match Register(app.users, piped.value.email, piped.value.password, savedAt, env).result
                            case Ok(r) => HttpResponse(StatusCreated, Success(r))
                            case Err(e) => Filtered(e)
  {
    match piped
    case Err(e) => Step(app, Filtered(e))
    case Ok(c) =>
      var o := Register(app.users, c.email, c.password, savedAt, env);
      match o.result
      case Ok(response) => Step(app.(users := o.store), HttpResponse(StatusCreated, Success(response)))
      case Err(e) => Step(app.(users := o.store), Filtered(e))
  }

  /** `POST /user/register`, answered 201 on success. */
  function RegisterRequest(app: App, req: Request, isEmail: string -> bool, env: RegisterEnv): (s: Step)
    ensures s.app.loginGuard == app.loginGuard
    ensures s.app.registerGuard
         == RateLimit.CanActivate(RegisterLimit, app.registerGuard, req.client, req.now).state
    ensures s.response.status == StatusTooManyRequests && s.app.users == app.users
            <== RateLimit.CanActivate(RegisterLimit, app.registerGuard, req.client, req.now).error.Some?
    ensures var guard := RateLimit.CanActivate(RegisterLimit, app.registerGuard, req.client, req.now);
            guard.error.None? ==>
              s == RegisterAdmitted(app.(registerGuard := guard.state), ValidationPipe(RegisterRoute, req.body, isEmail),
                                    req.savedAt, env)
  {
    var guard := RateLimit.CanActivate(RegisterLimit, app.registerGuard, req.client, req.now);
    var guarded := app.(registerGuard := guard.state);
    if guard.error.Some? then Step(guarded, Filtered(guard.error.value))
    else RegisterAdmitted(guarded, ValidationPipe(RegisterRoute, req.body, isEmail), req.savedAt, env)
  }

  /** What `login` answers once the guard has admitted the request; the
      users collection is only read. */
  function LoginAdmitted(app: App, piped: Result<Credentials, Exception>, env: LoginEnv): (s: Step)
    ensures s.app == app
    ensures piped.Err? ==> s.response == Filtered(piped.error)
    ensures piped.Ok? ==>
              s.response == match Login(app.users, piped.value.email, piped.value.password, env)
                            case Ok(r) => HttpResponse(StatusOk, Success(r))
                            case Err(e) => Filtered(e)
  {
    match piped
    case Err(e) => Step(app, Filtered(e))
    case Ok(c) =>
      match Login(app.users, c.email, c.password, env)
      case Ok(response) => Step(app, HttpResponse(StatusOk, Success(response)))
      case Err(e) => Step(app, Filtered(e))
  }

  /** `POST /user/login`, answered 200 on success; it never writes users. */
  function LoginRequest(app: App, req: Request, isEmail: string -> bool, env: LoginEnv): (s: Step)
    ensures s.app.registerGuard == app.registerGuard
    ensures s.app.users == app.users
    ensures s.app.loginGuard
         == RateLimit.CanActivate(LoginLimit, app.loginGuard, req.client, req.now).state
    ensures s.response.status == StatusTooManyRequests
            <== RateLimit.CanActivate(LoginLimit, app.loginGuard, req.client, req.now).error.Some?
    ensures var guard := RateLimit.CanActivate(LoginLimit, app.loginGuard, req.client, req.now);
            guard.error.None? ==>
              s == LoginAdmitted(app.(loginGuard := guard.state), ValidationPipe(LoginRoute, req.body, isEmail), env)
  {
    var guard := RateLimit.CanActivate(LoginLimit, app.loginGuard, req.client, req.now);
    var guarded := app.(loginGuard := guard.state);
    if guard.error.Some? then Step(guarded, Filtered(guard.error.value))
    else LoginAdmitted(guarded, ValidationPipe(LoginRoute, req.body, isEmail), env)
  }

  // ---------------------------------------------------------------------------
  // Properties

  /** The statuses registration can answer with when the lookup succeeds. */
  lemma RegisterStatuses(app: App, req: Request, isEmail: string -> bool, env: RegisterEnv)
    requires env.findFails.None?
    ensures RegisterRequest(app, req, isEmail, env).response.status
            in {StatusCreated, StatusBadRequest, StatusConflict, StatusTooManyRequests, StatusInternalServerError}
  {
    var s := RegisterRequest(app, req, isEmail, env);
    var guard := RateLimit.CanActivate(RegisterLimit, app.registerGuard, req.client, req.now);
    if guard.error.None? {
      var p := ValidationPipe(RegisterRoute, req.body, isEmail);
      if p.Err? {
        RejectionReply(RegisterRoute, req.body, isEmail);
        assert s.response == Filtered(p.error);
      } else {
        var o := Register(app.users, p.value.email, p.value.password, req.savedAt, env);
        if o.result.Err? {
          RegisterFailureStatus(app.users, p.value.email, p.value.password, req.savedAt, env);
          assert s.response == Filtered(o.result.error);
        }
      }
    }
  }

  /** The statuses login can answer with when the lookup and bcrypt succeed. */
  lemma LoginStatuses(app: App, req: Request, isEmail: string -> bool, env: LoginEnv)
    requires env.findFails.None?
    requires forall p, h :: env.compare(p, h).Ok?
    ensures LoginRequest(app, req, isEmail, env).response.status
            in {StatusOk, StatusBadRequest, StatusUnauthorized, StatusTooManyRequests}
  {
    var s := LoginRequest(app, req, isEmail, env);
    var guard := RateLimit.CanActivate(LoginLimit, app.loginGuard, req.client, req.now);
    if guard.error.None? {
      var p := ValidationPipe(LoginRoute, req.body, isEmail);
      if p.Err? {
        RejectionReply(LoginRoute, req.body, isEmail);
        assert s.response == Filtered(p.error);
      } else {
        var r := Login(app.users, p.value.email, p.value.password, env);
        if r.Err? {
          LoginFailureStatus(app.users, p.value.email, p.value.password, env);
          assert s.response == Filtered(r.error);
        }
      }
    }
  }

  /** Every stored email is lower-cased and trimmed. */
  ghost predicate CanonicalUsers(users: Store) {
    forall e :: e in users ==> Canonical(e)
  }

  lemma RegisterKeepsStoreCanonical(users: Store, email: string, password: string, now: int, env: RegisterEnv)
    requires CanonicalUsers(users) && Canonical(email)
    ensures CanonicalUsers(Register(users, email, password, now, env).store)
  {
    RegisterKeys(users, email, password, now, env);
  }

  /** Registration keeps the collection canonical, concurrent inserts
      included, since both go through the same DTO. */
  lemma RegisterKeepsUsersCanonical(app: App, req: Request, isEmail: string -> bool, env: RegisterEnv)
    requires CanonicalUsers(app.users)
    ensures CanonicalUsers(RegisterRequest(app, req, isEmail, env).app.users)
  {
    RegisterWritesThroughService(app, req, isEmail, env);
    var p := ValidationPipe(RegisterRoute, req.body, isEmail);
    if p.Ok? {
      PipeOutput(RegisterRoute, req.body, isEmail);
      RegisterKeepsStoreCanonical(app.users, p.value.email, p.value.password, req.savedAt, env);
    }
  }

  /** The users collection changes only through the service, and only for a
      body that passed validation. */
  lemma RegisterWritesThroughService(app: App, req: Request, isEmail: string -> bool, env: RegisterEnv)
    ensures var users := RegisterRequest(app, req, isEmail, env).app.users;
            var p := ValidationPipe(RegisterRoute, req.body, isEmail);
            || users == app.users
            || (p.Ok? && users == Register(app.users, p.value.email, p.value.password, req.savedAt, env).store)
  {
    var s := RegisterRequest(app, req, isEmail, env);
    var guard := RateLimit.CanActivate(RegisterLimit, app.registerGuard, req.client, req.now);
    if guard.error.None? {
      match ValidationPipe(RegisterRoute, req.body, isEmail)
      case Err(e) =>
        assert s.app == app.(registerGuard := guard.state);
      case Ok(c) =>
        var o := Register(app.users, c.email, c.password, req.savedAt, env);
        assert s.app == app.(registerGuard := guard.state, users := o.store);
    }
  }

  /** A body that registration accepts, login accepts too, with the same
      email and password. */
  lemma LoginAcceptsRegisteredBody(body: seq<Field>, isEmail: string -> bool)
    requires ValidationPipe(RegisterRoute, body, isEmail).Ok?
    ensures ValidationPipe(LoginRoute, body, isEmail) == ValidationPipe(RegisterRoute, body, isEmail)
  {
    LoginAcceptsRegisteredInstance(body, isEmail);
    SameInstanceValues(body, "email");
    SameInstanceValues(body, "password");
  }

  /** With the lookup working, registration answers 201 only when the
      guard admitted the request, the body passed validation and the
      service stored the account, and the reply carries the stored email. */
  lemma RegisterCreated(app: App, req: Request, isEmail: string -> bool, env: RegisterEnv)
    requires env.findFails.None?
    requires RegisterRequest(app, req, isEmail, env).response.status == StatusCreated
    ensures RateLimit.CanActivate(RegisterLimit, app.registerGuard, req.client, req.now).error.None?
    ensures ValidationPipe(RegisterRoute, req.body, isEmail).Ok?
    ensures var c := ValidationPipe(RegisterRoute, req.body, isEmail).value;
            var o := Register(app.users, c.email, c.password, req.savedAt, env);
            && o.result.Ok?
            && RegisterRequest(app, req, isEmail, env).app.users == o.store
            && RegisterRequest(app, req, isEmail, env).response.body
               == Success(AuthResponse(RegisteredMessage, UserView(c.email, req.savedAt)))
  {
    var s := RegisterRequest(app, req, isEmail, env);
    var guard := RateLimit.CanActivate(RegisterLimit, app.registerGuard, req.client, req.now);
    if guard.error.None? {
      var p := ValidationPipe(RegisterRoute, req.body, isEmail);
      if p.Err? {
        RejectionReply(RegisterRoute, req.body, isEmail);
      } else {
        var o := Register(app.users, p.value.email, p.value.password, req.savedAt, env);
        if o.result.Err? {
          RegisterFailureStatus(app.users, p.value.email, p.value.password, req.savedAt, env);
        } else {
          assert s == Step(app.(registerGuard := guard.state, users := o.store),
                           HttpResponse(StatusCreated, Success(o.result.value)));
        }
      }
    }
  }

  /** An admitted, valid sign-up that the service stores answers 201 with
      the service's response. */
  lemma RegisterAnswersCreated(app: App, req: Request, isEmail: string -> bool, env: RegisterEnv, c: Credentials)
    requires RateLimit.CanActivate(RegisterLimit, app.registerGuard, req.client, req.now).error.None?
    requires ValidationPipe(RegisterRoute, req.body, isEmail) == Ok(c)
    requires Register(app.users, c.email, c.password, req.savedAt, env).result.Ok?
    ensures var o := Register(app.users, c.email, c.password, req.savedAt, env);
            && RegisterRequest(app, req, isEmail, env).response == HttpResponse(StatusCreated, Success(o.result.value))
            && RegisterRequest(app, req, isEmail, env).app.users == o.store
  {
  }

  /** A login the guard admits, whose body validates and whose credentials
      the service accepts, answers 200 with the service's response. */
  lemma LoginAnswersOk(app: App, req: Request, isEmail: string -> bool, env: LoginEnv, c: Credentials)
    requires RateLimit.CanActivate(LoginLimit, app.loginGuard, req.client, req.now).error.None?
    requires ValidationPipe(LoginRoute, req.body, isEmail) == Ok(c)
    requires Login(app.users, c.email, c.password, env).Ok?
    ensures LoginRequest(app, req, isEmail, env).response
         == HttpResponse(StatusOk, Success(Login(app.users, c.email, c.password, env).value))
  {
  }

  /** Signing up and then signing in with the same body answers 200 with the
      stored account, when the login guard admits the request and bcrypt
      accepts the password against the hash it produced. */
  lemma SignUpThenSignIn(app: App, r1: Request, r2: Request, isEmail: string -> bool,
                         renv: RegisterEnv, lenv: LoginEnv)
    requires renv.findFails.None?
    requires RegisterRequest(app, r1, isEmail, renv).response.status == StatusCreated
    requires r2.body == r1.body
    requires RateLimit.CanActivate(LoginLimit, app.loginGuard, r2.client, r2.now).error.None?
    requires lenv.findFails.None?
    requires renv.hashed.Ok? && ValidationPipe(RegisterRoute, r1.body, isEmail).Ok?
    requires lenv.compare(ValidationPipe(RegisterRoute, r1.body, isEmail).value.password, renv.hashed.value) == Ok(true)
    ensures var c := ValidationPipe(RegisterRoute, r1.body, isEmail).value;
            (LoginRequest(RegisterRequest(app, r1, isEmail, renv).app, r2, isEmail, lenv).response
             == HttpResponse(StatusOk, Success(AuthResponse(LoginMessage, UserView(c.email, r1.savedAt)))))
  {
    RegisterCreated(app, r1, isEmail, renv);
    var a := RegisterRequest(app, r1, isEmail, renv).app;
    var c := ValidationPipe(RegisterRoute, r1.body, isEmail).value;
    LoginAcceptsRegisteredBody(r1.body, isEmail);
    RegisterThenLogin(app.users, c.email, c.password, r1.savedAt, renv, lenv);
    LoginAnswersOk(a, r2, isEmail, lenv, c);
  }

  /** A sign-up the guard admits, whose body validates to an email that is
      already stored, answers 409 and stores nothing. */
  lemma RegisterAnswersConflict(app: App, req: Request, isEmail: string -> bool, env: RegisterEnv)
    requires env.findFails.None?
    requires RateLimit.CanActivate(RegisterLimit, app.registerGuard, req.client, req.now).error.None?
    requires ValidationPipe(RegisterRoute, req.body, isEmail).Ok?
    requires ValidationPipe(RegisterRoute, req.body, isEmail).value.email in app.users
    ensures RegisterRequest(app, req, isEmail, env).response
         == HttpResponse(StatusConflict, Failure(DuplicateEmailMessage))
    ensures RegisterRequest(app, req, isEmail, env).app.users == app.users
  {
    BuiltInReply(StatusConflict, DuplicateEmailMessage);
  }

  /** Once an account exists, a second sign-up whose email differs only in
      letter case or surrounding whitespace answers 409. */
  lemma CaseVariantConflicts(app: App, r1: Request, r2: Request, isEmail: string -> bool,
                             env1: RegisterEnv, env2: RegisterEnv)
    requires env1.findFails.None?
    requires RegisterRequest(app, r1, isEmail, env1).response.status == StatusCreated
    requires ValidationPipe(RegisterRoute, r1.body, isEmail).Ok?
    requires ValidationPipe(RegisterRoute, r2.body, isEmail).Ok?
    requires ValidationPipe(RegisterRoute, r2.body, isEmail).value.email
          == ValidationPipe(RegisterRoute, r1.body, isEmail).value.email
    requires env2.findFails.None?
    requires var a := RegisterRequest(app, r1, isEmail, env1).app;
             RateLimit.CanActivate(RegisterLimit, a.registerGuard, r2.client, r2.now).error.None?
    ensures var a := RegisterRequest(app, r1, isEmail, env1).app;
            (RegisterRequest(a, r2, isEmail, env2).response
             == HttpResponse(StatusConflict, Failure(DuplicateEmailMessage)))
  {
    RegisterCreated(app, r1, isEmail, env1);
    var c := ValidationPipe(RegisterRoute, r1.body, isEmail).value;
    RegisterTouchesOnlyItsEmail(app.users, c.email, c.password, r1.savedAt, env1);
    var a := RegisterRequest(app, r1, isEmail, env1).app;
    assert c.email in a.users;
    RegisterAnswersConflict(a, r2, isEmail, env2);
  }

  /** A string email in an accepted body reaches the service lower-cased and trimmed. */
  lemma PipeEmail(body: seq<Field>, raw: string, isEmail: string -> bool)
    requires Get(body, "email") == Some(Str(raw))
    requires ValidationPipe(RegisterRoute, body, isEmail).Ok?
    ensures ValidationPipe(RegisterRoute, body, isEmail).value.email == NormalizeEmail(raw)
  {
    InstanceEmail(RegisterUserDto, body, raw);
  }

  /** Two raw emails that differ only in letter case and surrounding
      whitespace reach the service as the same email. */
  lemma CaseVariantsNormalizeAlike(b1: seq<Field>, b2: seq<Field>, pre: string, a: string, post: string, b: string,
                                   isEmail: string -> bool)
    requires AllWhitespace(pre) && AllWhitespace(post) && SameUpToCase(a, b)
    requires Get(b1, "email") == Some(Str(pre + a + post)) && Get(b2, "email") == Some(Str(b))
    requires ValidationPipe(RegisterRoute, b1, isEmail).Ok? && ValidationPipe(RegisterRoute, b2, isEmail).Ok?
    ensures ValidationPipe(RegisterRoute, b1, isEmail).value.email
         == ValidationPipe(RegisterRoute, b2, isEmail).value.email
         == NormalizeEmail(b)
  {
    PipeEmail(b1, pre + a + post, isEmail);
    PipeEmail(b2, b, isEmail);
    NormalizeIgnoresCaseAndPadding(pre, a, post, b);
  }
}

=== FILE: user_service.dfy ===
/**
 `UserService`: registration and login against the users collection. The
 collection is a map from email to the stored document, so the unique index
 on the email is part of the type. The collaborators whose behaviour is
 outside the core (the database round trips, bcrypt) are inputs.
 */
module UserService {
  import opened Basics
  import opened Json
  import opened Exceptions

  /** A stored user document, less its email (the map key). */
  datatype Credential = Credential(passwordHash: string, createdAt: int)

  type Store = map<string, Credential>

  /** The `user` part of a successful response. */
  datatype UserView = UserView(email: string, createdAt: int)

  /** `RegisterResponseDto` and `LoginResponseDto`. */
  datatype AuthResponse = AuthResponse(message: string, user: UserView)

  const RegisteredMessage := "User registered successfully"
  const LoginMessage := "Login successful"
  const DuplicateEmailMessage := "Email already registered"
  const RegisterFailureMessage := "An error occurred while registering the user"
  const BadCredentialsMessage := "Invalid email or password"

  /** The MongoDB error code of a unique-index violation. */
  const DuplicateKeyCode := 11000

  /** What `save()` rejects with when the email is already taken. */
  const DuplicateKeyError := Error("E11000 duplicate key error collection: users index: email_1", Some(DuplicateKeyCode))

  /** What happens outside the service during one registration:
      `findFails` is a rejected `findOne`; `hashed` is the outcome of
      `bcrypt.hash(password, 10)`; `concurrent` is a document for the same
      email that another request saves between this request's `findOne` and
      its `save`; `saveFails` is any other rejection of `save`. */
  datatype RegisterEnv = RegisterEnv(findFails: Option<Exception>, hashed: Result<string, Exception>,
                                     concurrent: Option<Credential>, saveFails: Option<Exception>)

  /** What happens outside the service during one login: a rejected
      `findOne`, and `bcrypt.compare(password, hash)`. */
  datatype LoginEnv = LoginEnv(findFails: Option<Exception>, compare: (string, string) -> Result<bool, Exception>)

  /** The store after a call, and what the call returned or threw. */
  datatype Outcome = Outcome(store: Store, result: Result<AuthResponse, Exception>)

  /** `error.code === 11000`: the driver's `code` property, or a `code`
      field of a thrown object. */
  predicate HasDuplicateCode(e: Exception) {
    match e
    case Error(_, code) => code == Some(DuplicateKeyCode)
    case Thrown(v) => v.Obj? && Get(v.fields, "code") == Some(Num(DuplicateKeyCode))
    case HttpException(_, _, _) => false
  }

  /** The `catch` block; reading `code` of `null` throws a `TypeError`
      instead. */
  function RegisterCatch(e: Exception): (thrown: Exception)
    ensures e != Thrown(Null) && HasDuplicateCode(e) ==> thrown == ConflictException(DuplicateEmailMessage)
    ensures e != Thrown(Null) && !HasDuplicateCode(e) ==> thrown == InternalServerErrorException(RegisterFailureMessage)
    ensures e == Thrown(Null) ==> thrown.Error?
  {
    if e == Thrown(Null) then Error("Cannot read properties of null (reading 'code')", None)
    else if HasDuplicateCode(e) then ConflictException(DuplicateEmailMessage)
    else InternalServerErrorException(RegisterFailureMessage)
  }

  /** The store `save()` meets: the collection after any concurrent insert. */
  function AtSave(store: Store, email: string, env: RegisterEnv): Store {
    if env.concurrent.Some? then store[email := env.concurrent.value] else store
  }

  /** `register`: the pre-check outside the `try`, then hashing and saving
      inside it. `now` is the `new Date()` reading stored as `createdAt`. A
      concurrent insert lands in the collection whether this request's hash
      succeeds or not. */
  function Register(store: Store, email: string, password: string, now: int, env: RegisterEnv): (o: Outcome)
    ensures o.result.Ok? <==> env.findFails.None? && email !in store && env.hashed.Ok?
                              && env.concurrent.None? && env.saveFails.None?
    ensures o.result.Ok? ==> o.store == store[email := Credential(env.hashed.value, now)]
                             && o.result.value == AuthResponse(RegisteredMessage, UserView(email, now))
    ensures o.result.Err? ==> o.store == AtSave(store, email, env) || o.store == store
    ensures env.findFails.Some? ==> o == Outcome(store, Err(env.findFails.value))
    ensures env.findFails.None? && email in store
            ==> o == Outcome(store, Err(ConflictException(DuplicateEmailMessage)))
    ensures env.findFails.None? && email !in store && env.hashed.Ok? && env.concurrent.Some?
            ==> o.result == Err(ConflictException(DuplicateEmailMessage))
    ensures env.findFails.None? && email !in store && env.hashed.Err?
            ==> o == Outcome(AtSave(store, email, env), Err(RegisterCatch(env.hashed.error)))
    ensures env.findFails.None? && email !in store && env.hashed.Ok? && env.concurrent.None? && env.saveFails.Some?
            ==> o == Outcome(store, Err(RegisterCatch(env.saveFails.value)))
  {
    if env.findFails.Some? then Outcome(store, Err(env.findFails.value))
    else if email in store then Outcome(store, Err(ConflictException(DuplicateEmailMessage)))
    else
      match env.hashed
      case Err(e) => Outcome(AtSave(store, email, env), Err(RegisterCatch(e)))
      case Ok(hash) =>
        var current := AtSave(store, email, env);
        if email in current then Outcome(current, Err(RegisterCatch(DuplicateKeyError)))
        else if env.saveFails.Some? then Outcome(current, Err(RegisterCatch(env.saveFails.value)))
        else Outcome(current[email := Credential(hash, now)],
                     Ok(AuthResponse(RegisteredMessage, UserView(email, now))))
  }

  /** `login`: the store is only read. */
  function Login(store: Store, email: string, password: string, env: LoginEnv): (r: Result<AuthResponse, Exception>)
    ensures r.Ok? <==> env.findFails.None? && email in store
                       && env.compare(password, store[email].passwordHash) == Ok(true)
    ensures r.Ok? ==> r.value == AuthResponse(LoginMessage, UserView(email, store[email].createdAt))
    ensures env.findFails.None? && email !in store ==> r == Err(UnauthorizedException(BadCredentialsMessage))
    ensures env.findFails.None? && email in store && env.compare(password, store[email].passwordHash) == Ok(false)
            ==> r == Err(UnauthorizedException(BadCredentialsMessage))
    ensures env.findFails.Some? ==> r == Err(env.findFails.value)
    ensures env.findFails.None? && email in store && env.compare(password, store[email].passwordHash).Err?
            ==> r == Err(env.compare(password, store[email].passwordHash).error)
  {
    if env.findFails.Some? then Err(env.findFails.value)
    else if email !in store then Err(UnauthorizedException(BadCredentialsMessage))
    else
      match env.compare(password, store[email].passwordHash)
      case Err(e) => Err(e)
      case Ok(valid) =>
        if !valid then Err(UnauthorizedException(BadCredentialsMessage))
        else Ok(AuthResponse(LoginMessage, UserView(email, store[email].createdAt)))
  }

  // ---------------------------------------------------------------------------
  // Properties

  /** A failed registration never stores this request's credential: any
      document for the email was there before or came from the concurrent
      insert, and no other email is touched. */
  lemma FailedRegisterStoresNothing(store: Store, email: string, password: string, now: int, env: RegisterEnv)
    requires Register(store, email, password, now, env).result.Err?
    ensures var s := Register(store, email, password, now, env).store;
            && (email in s ==> (email in store && s[email] == store[email])
                               || (env.concurrent.Some? && s[email] == env.concurrent.value))
            && (forall k :: k != email ==> (k in s <==> k in store))
            && (forall k :: k != email && k in s ==> s[k] == store[k])
  {
  }

  /** A successful registration changes only the new email's entry. */
  lemma RegisterTouchesOnlyItsEmail(store: Store, email: string, password: string, now: int, env: RegisterEnv)
    requires Register(store, email, password, now, env).result.Ok?
    ensures var s := Register(store, email, password, now, env).store;
            && s.Keys == store.Keys + {email}
            && email !in store
            && (forall k :: k in store ==> s[k] == store[k])
  {
  }

  /** Registration adds at most the one email it was given. */
  lemma RegisterKeys(store: Store, email: string, password: string, now: int, env: RegisterEnv)
    ensures forall k :: k in Register(store, email, password, now, env).store ==> k in store || k == email
  {
  }

  /** Registering and then logging in with the same password succeeds,
      provided bcrypt accepts the password against the hash it produced. */
  lemma RegisterThenLogin(store: Store, email: string, password: string, now: int,
                          renv: RegisterEnv, lenv: LoginEnv)
    requires Register(store, email, password, now, renv).result.Ok?
    requires lenv.findFails.None?
    requires lenv.compare(password, renv.hashed.value) == Ok(true)
    ensures Login(Register(store, email, password, now, renv).store, email, password, lenv)
         == Ok(AuthResponse(LoginMessage, UserView(email, now)))
  {
  }

  /** Registering an email a second time is a conflict and stores nothing. */
  lemma SecondRegistrationConflicts(store: Store, email: string, p1: string, p2: string, t1: int, t2: int,
                                    env1: RegisterEnv, env2: RegisterEnv)
    requires Register(store, email, p1, t1, env1).result.Ok?
    requires env2.findFails.None?
    ensures var s := Register(store, email, p1, t1, env1).store;
            Register(s, email, p2, t2, env2) == Outcome(s, Err(ConflictException(DuplicateEmailMessage)))
  {
  }

  /** An unknown email and a wrong password fail with the same exception,
      so a client cannot tell which emails are registered. */
  lemma LoginFailuresIndistinguishable(store: Store, known: string, unknown: string, password: string, env: LoginEnv)
    requires env.findFails.None?
    requires known in store && unknown !in store
    requires env.compare(password, store[known].passwordHash) == Ok(false)
    ensures Login(store, known, password, env) == Login(store, unknown, password, env)
    ensures Catch(Login(store, unknown, password, env).error)
         == Reply(StatusUnauthorized, BadCredentialsMessage, LogWarn)
  {
    BuiltInReply(StatusUnauthorized, BadCredentialsMessage);
  }

  /** The duplicate-key race answers like the pre-check, 409 with the same message. */
  lemma RaceRepliesLikePrecheck(store: Store, email: string, password: string, now: int, env: RegisterEnv)
    requires env.findFails.None? && email !in store && env.hashed.Ok? && env.concurrent.Some?
    ensures Catch(Register(store, email, password, now, env).result.error)
         == Catch(Register(store[email := env.concurrent.value], email, password, now, env).result.error)
         == Reply(StatusConflict, DuplicateEmailMessage, LogWarn)
  {
    BuiltInReply(StatusConflict, DuplicateEmailMessage);
  }

  /** Any other failure inside the `try` answers 500 with a fixed message
      that does not disclose the cause. */
  lemma InternalFailureReply(e: Exception)
    requires !HasDuplicateCode(e) && e != Thrown(Null)
    ensures Catch(RegisterCatch(e)) == Reply(StatusInternalServerError, RegisterFailureMessage, LogError)
  {
    BuiltInReply(StatusInternalServerError, RegisterFailureMessage);
  }

  /** With the lookup working, a failed registration answers 409 or 500. */
  lemma RegisterFailureStatus(store: Store, email: string, password: string, now: int, env: RegisterEnv)
    requires env.findFails.None?
    requires Register(store, email, password, now, env).result.Err?
    ensures Catch(Register(store, email, password, now, env).result.error).status
            in {StatusConflict, StatusInternalServerError}
  {
    BuiltInReply(StatusConflict, DuplicateEmailMessage);
    BuiltInReply(StatusInternalServerError, RegisterFailureMessage);
  }

  /** With the lookup and bcrypt working, a failed login answers 401. */
  lemma LoginFailureStatus(store: Store, email: string, password: string, env: LoginEnv)
    requires env.findFails.None?
    requires email in store ==> env.compare(password, store[email].passwordHash).Ok?
    requires Login(store, email, password, env).Err?
    ensures Catch(Login(store, email, password, env).error)
         == Reply(StatusUnauthorized, BadCredentialsMessage, LogWarn)
  {
    BuiltInReply(StatusUnauthorized, BadCredentialsMessage);
  }
}

=== FILE: validators.dfy ===
/**
 The custom class-validator predicates `IsNormalizedEmail` and
 `IsStrongPassword`, the email normalisation both DTOs apply, and the email
 pattern `^[^\s@]+@[^\s@]+\.[^\s@]+$` that the DTOs and `IsNormalizedEmail`
 share.
 */
module Validators {
  import opened Basics
  import opened Text
  import opened Json

  // ---------------------------------------------------------------------------
  // Email normalisation

  /** What a normalised email looks like: no upper-case letter and no
      whitespace at either end. */
  predicate Canonical(s: string) {
    NoAsciiUpper(s) && Unpadded(s)
  }

  /** `value.toLowerCase().trim()` */
  function NormalizeEmail(s: string): (r: string)
    ensures |r| <= |s|
    ensures Canonical(r)
  {
    TrimNoAsciiUpper(ToLower(s));
    Trim(ToLower(s))
  }

  /** Normalisation leaves exactly the canonical strings unchanged. */
  lemma CanonicalIsFixpoint(s: string)
    ensures NormalizeEmail(s) == s <==> Canonical(s)
  {
    if Canonical(s) {
      ToLowerOfLower(s);
      TrimOfUnpadded(s);
    }
  }

  /** Normalising an already normalised email changes nothing. */
  lemma NormalizeIdempotent(s: string)
    ensures NormalizeEmail(NormalizeEmail(s)) == NormalizeEmail(s)
  {
    CanonicalIsFixpoint(NormalizeEmail(s));
  }

  /** Strings that agree up to ASCII letter case. */
  ghost predicate SameUpToCase(a: string, b: string) {
    |a| == |b| && forall i :: 0 <= i < |a| ==> LowerChar(a[i]) == LowerChar(b[i])
  }

  lemma AllWhitespaceLowered(s: string)
    requires AllWhitespace(s)
    ensures AllWhitespace(ToLower(s))
  {
  }

  /** Letter case and surrounding whitespace do not reach the normalised value. */
  lemma NormalizeIgnoresCaseAndPadding(pre: string, a: string, post: string, b: string)
    requires AllWhitespace(pre) && AllWhitespace(post)
    requires SameUpToCase(a, b)
    ensures NormalizeEmail(pre + a + post) == NormalizeEmail(b)
  {
    ToLowerAppend(pre + a, post);
    ToLowerAppend(pre, a);
    assert ToLower(a) == ToLower(b);
    AllWhitespaceLowered(pre);
    AllWhitespaceLowered(post);
    TrimPadding(ToLower(pre), ToLower(a), ToLower(post));
  }

  // ---------------------------------------------------------------------------
  // The email pattern

  /** `[^\s@]` */
  predicate IsEmailPartChar(c: char) {
    !IsWhitespace(c) && c != '@'
  }

  /** `s[lo..hi]` is a non-empty run of `[^\s@]`. */
  ghost predicate EmailPart(s: string, lo: int, hi: int) {
    0 <= lo < hi <= |s| && forall k :: lo <= k < hi ==> IsEmailPartChar(s[k])
  }

  /** `^[^\s@]+@[^\s@]+\.[^\s@]+$` read as a regular expression: three
      non-empty runs of `[^\s@]`, the first two separated by '@' and the last
      two by '.'. */
  ghost predicate MatchesEmailPattern(s: string) {
    exists at, dot :: 0 < at && at + 1 < dot && dot + 1 < |s| && s[at] == '@' && s[dot] == '.'
                      && EmailPart(s, 0, at) && EmailPart(s, at + 1, dot) && EmailPart(s, dot + 1, |s|)
  }

  /** The pattern in plain words: no whitespace, one '@' with something
      before it and no other '@' after it, and a '.' in the domain after the
      '@' that is neither the domain's first nor its last character. */
  predicate IsEmailShape(s: string) {
    && NoWhitespace(s)
    && '@' in s
    && var at := IndexOf(s, '@');
       && at > 0
       && '@' !in s[at + 1..]
       && exists dot :: at + 1 < dot < |s| - 1 && s[dot] == '.'
  }

  lemma PatternGivesShape(s: string, at: int, dot: int)
    requires 0 < at && at + 1 < dot && dot + 1 < |s| && s[at] == '@' && s[dot] == '.'
    requires EmailPart(s, 0, at) && EmailPart(s, at + 1, dot) && EmailPart(s, dot + 1, |s|)
    ensures IsEmailShape(s)
  {
    NotInPrefix(s, at, '@');
    NotInSuffix(s, at + 1, '@');
    assert IndexOf(s, '@') == at;
    forall k | 0 <= k < |s| ensures !IsWhitespace(s[k]) {
      if k < at { assert IsEmailPartChar(s[k]); }
      else if k == at || k == dot { }
      else if k < dot { assert IsEmailPartChar(s[k]); }
      else { assert IsEmailPartChar(s[k]); }
    }
  }

  lemma ShapeGivesPattern(s: string)
    requires IsEmailShape(s)
    ensures MatchesEmailPattern(s)
  {
    var at := IndexOf(s, '@');
    var dot :| at + 1 < dot < |s| - 1 && s[dot] == '.';
    NotInPrefix(s, at, '@');
    NotInSuffix(s, at + 1, '@');
    assert EmailPart(s, 0, at);
    assert EmailPart(s, at + 1, dot);
    assert EmailPart(s, dot + 1, |s|);
  }

  /** The regular expression accepts exactly the strings of that shape. */
  lemma EmailPatternIsShape(s: string)
    ensures MatchesEmailPattern(s) <==> IsEmailShape(s)
  {
    if MatchesEmailPattern(s) {
      var at, dot :| 0 < at && at + 1 < dot && dot + 1 < |s| && s[at] == '@' && s[dot] == '.'
                     && EmailPart(s, 0, at) && EmailPart(s, at + 1, dot) && EmailPart(s, dot + 1, |s|);
      PatternGivesShape(s, at, dot);
    }
    if IsEmailShape(s) {
      ShapeGivesPattern(s);
    }
  }

  // ---------------------------------------------------------------------------
  // IsNormalizedEmail

  /** `IsNormalizedEmail`'s `validate`: false for anything but a string,
      otherwise the pattern on the lower-cased, trimmed value. */
  function ValidateNormalizedEmail(value: Option<Value>): (ok: bool)
    ensures ok <==> value.Some? && value.value.Str? && MatchesEmailPattern(NormalizeEmail(value.value.s))
  {
    match value
    case Some(Str(s)) =>
      EmailPatternIsShape(NormalizeEmail(s));
      IsEmailShape(NormalizeEmail(s))
    case _ => false
  }

  /** The verdict is the same for any two spellings that differ only in
      letter case and surrounding whitespace. */
  lemma NormalizedEmailIgnoresCaseAndPadding(pre: string, a: string, post: string, b: string)
    requires AllWhitespace(pre) && AllWhitespace(post)
    requires SameUpToCase(a, b)
    ensures ValidateNormalizedEmail(Some(Str(pre + a + post))) == ValidateNormalizedEmail(Some(Str(b)))
  {
    NormalizeIgnoresCaseAndPadding(pre, a, post, b);
  }

  /** " A@B.CO " is judged exactly as "a@b.co", and both pass. */
  lemma NormalizedEmailExample(padded: string, plain: string)
    requires padded == " A@B.CO " && plain == "a@b.co"
    ensures ValidateNormalizedEmail(Some(Str(padded))) == ValidateNormalizedEmail(Some(Str(plain)))
    ensures ValidateNormalizedEmail(Some(Str(plain)))
  {
    var upper := padded[1..7];
    assert padded == [' '] + upper + [' '];
    assert SameUpToCase(upper, plain);
    NormalizedEmailIgnoresCaseAndPadding([' '], upper, [' '], plain);
    ExampleNormalizedMatches(plain);
  }

  lemma ExampleIsNormal(plain: string)
    requires plain == "a@b.co"
    ensures NormalizeEmail(plain) == plain
  {
    assert Canonical(plain);
    CanonicalIsFixpoint(plain);
  }

  lemma ExampleMatches(plain: string)
    requires plain == "a@b.co"
    ensures MatchesEmailPattern(plain)
  {
    assert EmailPart(plain, 0, 1) && EmailPart(plain, 2, 3) && EmailPart(plain, 4, 6);
    assert plain[1] == '@' && plain[3] == '.';
  }

  lemma ExampleNormalizedMatches(plain: string)
    requires plain == "a@b.co"
    ensures MatchesEmailPattern(NormalizeEmail(plain))
  {
    ExampleIsNormal(plain);
    ExampleMatches(plain);
  }

  // ---------------------------------------------------------------------------
  // IsStrongPassword

  /** `^(?=.*[A-Za-z])(?=.*\d).{6,}$` read as a regular expression: each
      lookahead finds its class after a run of `.` (no line terminator), and
      `.{6,}` spans the whole value. */
  ghost predicate MatchesStrongPattern(s: string) {
    && (exists k :: 0 <= k < |s| && NoLineTerminator(s[..k]) && IsAsciiLetter(s[k]))
    && (exists k :: 0 <= k < |s| && NoLineTerminator(s[..k]) && IsDigit(s[k]))
    && |s| >= 6
    && NoLineTerminator(s)
  }

  predicate HasLetter(s: string) { exists k :: 0 <= k < |s| && IsAsciiLetter(s[k]) }

  predicate HasDigit(s: string) { exists k :: 0 <= k < |s| && IsDigit(s[k]) }

  /** `IsStrongPassword`'s `validate`: false for anything but a string. */
  function ValidateStrongPassword(value: Option<Value>): (ok: bool)
    ensures ok <==> value.Some? && value.value.Str? && MatchesStrongPattern(value.value.s)
  {
    match value
    case Some(Str(s)) =>
      assert NoLineTerminator(s) ==> forall k :: 0 <= k <= |s| ==> NoLineTerminator(s[..k]);
      |s| >= 6 && NoLineTerminator(s) && HasLetter(s) && HasDigit(s)
    case _ => false
  }

  /** The lookahead reading of the pattern in plain words: the two
      lookaheads only need a letter and a digit somewhere, because `.{6,}$`
      already excludes line terminators everywhere. */
  lemma StrongPasswordMeaning(s: string)
    ensures MatchesStrongPattern(s) <==> |s| >= 6 && HasLetter(s) && HasDigit(s) && NoLineTerminator(s)
  {
    if |s| >= 6 && HasLetter(s) && HasDigit(s) && NoLineTerminator(s) {
      var k :| 0 <= k < |s| && IsAsciiLetter(s[k]);
      var d :| 0 <= d < |s| && IsDigit(s[d]);
      assert NoLineTerminator(s[..k]) && NoLineTerminator(s[..d]);
    }
  }

  /** The predicate has no upper bound: appending characters other than line
      terminators to an accepted password keeps it accepted. */
  lemma StrongPasswordExtends(s: string, t: string)
    requires ValidateStrongPassword(Some(Str(s)))
    requires NoLineTerminator(t)
    ensures ValidateStrongPassword(Some(Str(s + t)))
  {
    var k :| 0 <= k < |s| && IsAsciiLetter(s[k]);
    var d :| 0 <= d < |s| && IsDigit(s[d]);
    assert (s + t)[k] == s[k] && (s + t)[d] == s[d];
  }

  /** A line terminator anywhere makes the predicate false. */
  lemma StrongPasswordRejectsLineTerminator(s: string, k: int)
    requires 0 <= k < |s| && IsLineTerminator(s[k])
    ensures !ValidateStrongPassword(Some(Str(s)))
  {
  }
}
